=== FILE: README.md ===
# HERO System 6e initiative engine — a Dafny model

This project models the turn-order ("initiative") engine of a HERO System 6e
combat tracker. A HERO turn has twelve segments. A character's SPD (0 to 12)
decides, through the speed chart, which segments it acts in. Within a segment
the higher DEX acts first. The repository contains two generations of the engine:

- **The segment-state engine** (`SpeedChartModel`, in two versions). Every
  combatant carries a vector of twelve cells: no phase, a pending phase
  (FUTURE), the phase acting now (NOW), and in the newer version an acted
  phase (PAST).
  - The model keeps a (turn, segment) cursor and the combatant acting now.
  - `next()` retires the actor and walks the cursor forward until somebody
    has a pending phase in the cursor's segment.
  - It then makes the highest-DEX such combatant the actor; on a DEX tie the
    first in list order wins.
  - The two versions' algorithm differs only in how a cell is encoded and in
    what an acted cell becomes. Their data differ a little more: only the
    newer version's combatant has a `kind` (default "PC"), and only its
    characteristic has setters. `SegmentEngine` holds the algorithm once, over a
    record of four cell codes. `CombatModel` (enumerated states; acted cells
    become PAST) and `MainWindow` (the integers 0/1/2/3; acted cells go back
    to NONE) instantiate it.
- **The time-ordered engine** (`Combat`, `Combatant`, `Time`).
  - The clock is a `Time(rnd, seg, dex)`. Times are ordered by round, then
    segment, then DEX descending; the clock starts each segment at DEX
    Infinity.
  - Every combatant holds the slot of its next phase.
  - `advance_time()` reschedules the combatants the clock has reached, unless
    a trigger cancels that.
  - It then moves the clock to the highest DEX still to act in the clock's
    segment, or ticks to the next segment (wrapping after segment 12) and
    tries again.

Modules, one concept each:

| file | module | content |
|---|---|---|
| `wrappers.dfy` | `Wrappers` | `Option`, `Result` and the Python exceptions an operation can raise |
| `speed_chart.dfy` | `SpeedChart` | both shapes of the speed chart and Python's list-indexing rule |
| `characteristic.dfy` | `Characteristics` | the "cur/max" characteristic of the segment-state engine |
| `segment_engine.dfy` | `SegmentEngine` | the segment-state engine, generic in the cell encoding |
| `combat_model.dfy` | `CombatModel` | the newer version's encoding |
| `main_window.dfy` | `MainWindow` | the older version's encoding |
| `timing.dfy` | `Timing` | `Time`, DEX with Infinity, `__cmp__`, triggers |
| `schedule.dfy` | `Schedule` | `spd_string` and `next_common_speed` |
| `timed_combatant.dfy` | `TimedCombatant` | the combatant of the time-ordered engine |
| `timed_combat.dfy` | `TimedCombat` | `Combat`: registration, queries, `calc_next_segments`, `advance_time` |

Python exceptions become `Err(...)` results naming the exception. Mutation
becomes a function or method that returns the new value. Object identity of the
segment-state engine's actor is an index into the roster. The actor becomes
`Detached` when it is deleted while acting, because Python keeps the
reference.

The code has no operation for a segment between turns, none that writes or
skips an ABORT cell, no "skip to" operation, no clamping of characteristic
changes, and no lookup by name prefix; the model has none of these either.

## Model

| member | source | states |
|---|---|---|
| SpeedChart.PyIndex | src/hero_init/combat_model.py:111-112 | `SPEED_CHART[spd]` accepts exactly the indices -n..n-1; a negative one counts from the end, and anything else is an IndexError |
| SpeedChart.SegmentsFor | constants.py:26-40 | the chart row exists exactly for SPD -13..12 (Python indexing) |
| SpeedChart.SegmentListShape | constants.py:26-40 | row i of the list chart has exactly i entries, strictly increasing, each in 1..12 |
| SpeedChart.ListedSegmentInTurn | constants.py:26-40 | every segment a chart row lists is a segment 1..12 of the turn |
| SpeedChart.SegmentListGoldenRows | constants.py:26-40 | row 0 is empty, row 6 is 2,4,6,8,10,12 and row 12 is 1..12 |
| SpeedChart.MatrixShape | src/hero_init/combat_model.py:43-58 | the 0/1 chart is 13 rows of 12 cells, each 0 or 1; row 0 is all 0 and row 12 all 1 |
| SpeedChart.ChartsAgree | constants.py:26-40 | for every SPD and segment, the segment is listed in the list chart exactly when the 0/1 chart cell is 1 |
| Characteristics.Strip | src/hero_init/combat_model.py:72 | the stripped text neither starts nor ends with whitespace, and text without whitespace is unchanged |
| Characteristics.StripTrims | src/hero_init/combat_model.py:72 | the stripped text is one contiguous slice of the input and every character outside that slice is whitespace, so stripping deletes nothing from the inside |
| Characteristics.StripPadded | src/hero_init/combat_model.py:72 | text that neither starts nor ends with whitespace, padded with whitespace on either side, strips back to exactly itself |
| Characteristics.StripIdempotent | src/hero_init/combat_model.py:72 | stripping a stripped text changes nothing |
| Characteristics.Split | src/hero_init/combat_model.py:72 | splitting yields at least one piece and no piece contains the separator |
| Characteristics.SplitJoin | src/hero_init/combat_model.py:72 | joining the pieces of a split with the separator gives back the text |
| Characteristics.ParseInt | src/hero_init/combat_model.py:75 | `int()` succeeds exactly on an optional sign followed by decimal digits |
| Characteristics.ParseIntToString | src/hero_init/combat_model.py:75 | parsing the decimal text of any integer gives back that integer |
| Characteristics.NewCharacteristic | src/hero_init/combat_model.py:70-78 | a number keeps `maxval`, defaulting to the current value. A text without "/" succeeds exactly when its stripped form is an integer, and gives cur == max == that integer. A text with more than two "/"-separated parts raises ValueError, and ValueError is the only error |
| Characteristics.NewCharacteristicTwoParts | src/hero_init/combat_model.py:70-76 | a text with two "/"-separated parts succeeds exactly when both stripped parts are integers, and then the first is the current value and the second the maximum, whatever `maxval` says |
| Characteristics.FormatRoundTrip | src/hero_init/combat_model.py:94-95 | constructing a characteristic from its printed "cur/max" form gives back the same characteristic |
| SegmentEngine.RowFor | src/hero_init/combat_model.py:111-112 | a chart row exists exactly for SPD -13..12 and has twelve cells |
| SegmentEngine.ChartRowMatchesSegments | src/hero_init/combat_model.py:61-67 | a converted chart cell is FUTURE exactly when the list chart schedules that segment, and NONE otherwise |
| SegmentEngine.NextTurn | src/hero_init/combat_model.py:111-112 | `_next_turn` resets only the vector, to exactly the chart row: FUTURE where the chart lists the segment, NONE elsewhere |
| SegmentEngine.NewCombatant | src/hero_init/combat_model.py:98-112 | construction succeeds exactly when all three characteristics parse and the SPD indexes the chart. A bad characteristic raises ValueError, checked first; three good characteristics with an SPD outside -13..12 raise IndexError. Name, SPD, DEX, status and kind are kept, STUN, BODY and END are the parsed characteristics, and the vector is the fresh chart row |
| SegmentEngine.GetSegment | src/hero_init/combat_model.py:142-144 | reading requires 1 <= idx <= 12 (else AssertionError) and returns list position idx-1 |
| SegmentEngine.SetSegment | src/hero_init/combat_model.py:146-149 | writing requires 1 <= idx <= 12 (else AssertionError) and changes only the vector |
| SegmentEngine.SetThenGet | src/hero_init/combat_model.py:142-149 | a written cell reads back as written, and every other cell is unchanged |
| SegmentEngine.FirstFuture | src/hero_init/combat_model.py:162-169 | the loop stops at the first FUTURE cell; none before it is FUTURE, and without one no cell is |
| SegmentEngine.ChangeSpd | src/hero_init/combat_model.py:151-173 | newspd outside 0..12 fails the assertion; otherwise only spd and the vector change. Cells before the first old FUTURE become NONE and the rest equal the new chart row (all NONE if there is no old FUTURE), so a FUTURE cell needs both the new row and an old FUTURE at or before it |
| SegmentEngine.Init | src/hero_init/combat_model.py:200-205 | a new model is at turn 1, segment 1, with no combatants and no actor |
| SegmentEngine.Retire | src/hero_init/combat_model.py:293-295 | only the actor's cell at the cursor changes, to the retired state; with no actor nothing changes; when NOW was only at the actor's cell, no NOW cell is left |
| SegmentEngine.Increment | src/hero_init/combat_model.py:256-263 | from segment 12 the cursor goes to (turn+1, 1) and every vector is re-derived from the chart; otherwise only the segment advances and the combatants are untouched |
| SegmentEngine.BestFrom | src/hero_init/combat_model.py:309-311 | the first candidate at or after a position with the highest DEX among those, or none when there is no candidate there |
| SegmentEngine.Choose | src/hero_init/combat_model.py:309-311 | a selection exists exactly when somebody is FUTURE in the cursor's segment, and it has maximal DEX and no earlier candidate has the same DEX |
| SegmentEngine.FirstBestUnique | src/hero_init/combat_model.py:309-311 | the selection rule (maximal DEX, first in list order on ties) determines one combatant |
| SegmentEngine.Pick | src/hero_init/combat_model.py:309-313 | the selected cell becomes NOW, the selected combatant becomes the actor, no other cell changes, and NOW appears only at the actor's cell |
| SegmentEngine.Seek | src/hero_init/combat_model.py:293-307 | the search loop stops at the first cursor position with a candidate, after at most one turn boundary |
| SegmentEngine.Next | src/hero_init/combat_model.py:290-316 | the result is the selection after the least number of increments (fewer than 24) reaching a candidate. The cursor stays in the turn, at or after the old segment, or moves to the next turn. The actor's cell is NOW and the selection is first-best. NOW occurs only at the actor's cell, and the old actor's cell stays retired within the turn |
| SegmentEngine.NextDivergesWithoutActors | src/hero_init/combat_model.py:301-307 | when nobody has a pending phase left in the turn and every SPD has an empty chart row, no number of increments finds a candidate, so `next()` never returns |
| SegmentEngine.FindByName | src/hero_init/combat_model.py:278-282 | the position of the first combatant with exactly that name, or none when no combatant has it |
| SegmentEngine.GetCombatant | src/hero_init/combat_model.py:278-282 | returns a combatant exactly when one has the name, and then the first such one in list order |
| SegmentEngine.AddCombatant | src/hero_init/combat_model.py:267-271 | appends at the end and leaves the earlier roster, the cursor and the actor unchanged |
| SegmentEngine.AddKeepsInvariants | src/hero_init/combat_model.py:267-271 | adding keeps the model well formed, and keeps NOW only at the actor's cell |
| SegmentEngine.AddedDuplicateIsShadowed | src/hero_init/combat_model.py:267-282 | since adding does not check for duplicates, a newcomer with a taken name is never found by name; otherwise it is found |
| SegmentEngine.DeleteCombatant | src/hero_init/combat_model.py:273-276 | fails with ValueError exactly when no combatant has the name. Otherwise it removes exactly the first such combatant, keeping the order of the others, keeps the cursor, and the actor still denotes the same record |
| SegmentEngine.DeleteKeepsInvariants | src/hero_init/combat_model.py:273-276 | deleting keeps the model well formed, and keeps NOW only at the actor's cell |
| SegmentEngine.AddThenDelete | src/hero_init/combat_model.py:267-276 | adding a combatant under a fresh name and deleting that name gives back the model |
| CombatModel.CodesValid | src/hero_init/combat_model.py:38-40 | FUTURE differs from NONE, NOW and PAST, and NOW from NONE and PAST |
| CombatModel.ConvertedChart | src/hero_init/combat_model.py:43-67 | after conversion every cell is NONE or FUTURE, FUTURE exactly where the 0/1 chart has 1; row 0 is all NONE and row 12 all FUTURE |
| CombatModel.NewCombatant | src/hero_init/combat_model.py:98-112 | construction fails exactly on a bad characteristic or SPD. Name, SPD, DEX and status are kept, STUN, BODY and END are the parsed characteristics, and `kind` defaults to "PC". The new vector is NONE/FUTURE, with FUTURE exactly at the chart's segments |
| CombatModel.ChangeSpd | src/hero_init/combat_model.py:151-173 | AssertionError exactly when newspd is outside 0..12; otherwise only `spd` and the vector change, the vector is the new chart row with every cell before the old vector's first FUTURE set to NONE (all NONE when there is none), and no NOW or PAST is left |
| CombatModel.Next | src/hero_init/combat_model.py:290-316 | the engine's `next()` under the enumerated codes: the least number of increments that reaches a FUTURE cell, at most one turn boundary, the first highest-DEX candidate becomes NOW, the old actor's cell is PAST for the rest of the turn, and at most one NOW is kept |
| MainWindow.CodesValid | src/hero_init/main_window.py:168-173 | in STATES, FUTURE=1 differs from NONE=0 and NOW=2, and NOW from NONE |
| MainWindow.ChartRowIsMatrixRow | src/hero_init/main_window.py:175-190 | the engine's chart row in this encoding is the 0/1 chart row itself, used unconverted |
| MainWindow.NewCombatant | src/hero_init/main_window.py:206-220 | construction fails exactly on a bad characteristic or SPD. Name, SPD, DEX and status are kept, STUN, BODY and END are the parsed characteristics, there is no `kind`, and the vector is the 0/1 chart row |
| MainWindow.ChangeSpd | src/hero_init/main_window.py:253-275 | AssertionError exactly when newspd is outside 0..12; otherwise only `spd` and the vector change, and the vector is the new 0/1 chart row with every cell before the old vector's first 1 set to 0 (all 0 when there is none) |
| MainWindow.Next | src/hero_init/main_window.py:392-418 | the engine's `next()` under the integer codes: the least number of increments that reaches a FUTURE cell, at most one turn boundary, the first highest-DEX candidate becomes NOW=2, the old actor's cell is back to NONE for the rest of the turn, and at most one NOW is kept |
| Timing.DexCmp | hero_init.py:246 | Python's `cmp` on DEX is -1, 0 or 1, positive exactly when the first is higher, with Infinity above every number |
| Timing.Cmp | hero_init.py:234-246 | `__cmp__` is negative exactly when the first time is earlier: an earlier round, or the same round and an earlier segment, or the same segment and a higher DEX. It is zero exactly for the same (rnd, seg, dex) |
| Timing.CmpAntisymmetric | hero_init.py:234-246 | swapping the operands negates the comparison |
| Timing.CmpTransitive | hero_init.py:234-246 | `<=` and `<` on times are transitive |
| Timing.CmpTotal | hero_init.py:234-246 | any two times are comparable and every time equals itself: a total preorder |
| Timing.PostPhaseOf | combatant.py:172-184 | a phase is done unless the slot's trigger returns exactly False |
| Schedule.AtLeastMembers | hero_init.py:420-422 | filtering by `seg >= curseg` keeps exactly the elements at or above curseg |
| Schedule.CommonMembers | hero_init.py:419 | filtering by `seg in newsegs` keeps exactly the shared elements |
| Schedule.Min | hero_init.py:425-427 | `min` of a non-empty list is an element no larger than any other |
| Schedule.SpdString | hero_init.py:399-408 | the string exists exactly for SPD -13..12 and has 12 marks separated by single spaces; mark i is "X" exactly when segment i+1 is in the chart row, "." otherwise |
| Schedule.SpdStringRoundTrip | hero_init.py:399-408 | reading the "X" marks of `spd_string(spd)` back gives exactly the chart row |
| Schedule.NextCommonSpeed | hero_init.py:410-427 | the result is (rnd, least shared segment >= curseg) when one exists, else (rnd+1, least shared segment). With no shared segment `min` raises ValueError; an SPD outside the chart raises IndexError |
| Schedule.ZeroSpeedHasNoCommonSegment | hero_init.py:410-427 | SPD 0 shares no segment with any speed, so `next_common_speed` fails for it |
| Schedule.SpeedOneAndTwoHaveNoCommonSegment | hero_init.py:410-427 | SPD 1 and SPD 2 share no segment, so `next_common_speed(.., 1, 2)` raises ValueError |
| TimedCombatant.NewStat | combatant.py:71-75 | a characteristic created without `current` starts at `maxval` |
| TimedCombatant.NextSlotIsEarliest | combatant.py:155-164 | the chosen slot is a chart segment after the clock (at it when inclusive), in this round or the next, and no chart slot after the clock is earlier |
| TimedCombatant.CalcNextSegment | combatant.py:145-166 | fails exactly for an SPD outside the chart (IndexError), an undecidable `inc_this` (AttributeError) or an empty chart row (IndexError). Otherwise only `next` changes, to the earliest chart slot after the clock (at it when `inc_this`) at the combatant's own DEX |
| TimedCombatant.PostPhase | combatant.py:172-184 | the trigger's result when it is not None, otherwise True; without a pending slot, AttributeError |
| TimedCombatant.ChangeSpeed | combatant.py:132-143 | succeeds exactly when both SPDs are in the chart and share a segment (IndexError for an SPD outside the chart, ValueError for two speeds without a shared segment); then only `spd` and `next` change, and `next` is the earliest slot at or after the clock's segment whose segment both speeds share, at the combatant's own DEX |
| TimedCombat.Lookup | hero_init.py:333-334 | a combatant is found exactly when its short name is registered, and it is the one registered under that name |
| TimedCombat.Init | hero_init.py:268-277 | a new combat is at round 0 of the given segment (default 12), at DEX Infinity, with nobody registered |
| TimedCombat.AddCombatant | hero_init.py:283-292 | registration fails with RuntimeError exactly for a taken short name. Otherwise the name set grows by that name, the new combatant is found under it, every other lookup is unchanged, and the clock is unchanged |
| TimedCombat.LookupUnique | hero_init.py:283-292 | with distinct short names, looking up a registered name finds exactly its entry |
| TimedCombat.NewCombatant | combatant.py:77-107 | the fields and the three characteristics are as given. Without a combat, `next` is None. With a combat, construction fails exactly for an SPD outside the chart (IndexError), an SPD whose chart row is empty, that is 0 or -13 (IndexError), or a taken short name (RuntimeError, the error `do_add` catches). Otherwise the first slot is the earliest chart slot at or after the clock's segment, at the combatant's DEX, and the combatant is registered under its short name with every other registration unchanged |
| TimedCombat.MovesIsNotEarlier | hero_init.py:302-309 | a combatant moves this segment exactly when its slot is in the clock's segment and not earlier than the clock (strictly later when `strict`) |
| TimedCombat.ThisSegment | hero_init.py:294-311 | exactly the combatants whose slot has the clock's (rnd, seg) and DEX at most the clock's (strictly below when `strict`); a combatant with no slot raises AttributeError |
| TimedCombat.ThisDex | hero_init.py:313-319 | exactly the combatants whose slot equals the clock's slot, a subset of this segment's |
| TimedCombat.Settle | hero_init.py:343-350 | a slot the clock has reached whose trigger lets it be rescheduled is recomputed by `calc_next_segment` (inclusive exactly when its DEX is below the clock's), failing exactly when that does; any other slot is kept; only `next` may change |
| TimedCombat.SettleRegistered | hero_init.py:343-350 | a registered combatant stays registered, and afterwards its slot is after the clock unless its trigger cancelled the rescheduling |
| TimedCombat.CalcNextSegments | hero_init.py:336-353 | succeeds exactly when every combatant settles; only `next` fields change, combatants the clock has not reached or whose trigger cancels are untouched, and every other combatant gets the slot `calc_next_segment` computes |
| TimedCombat.CalcNextSegmentsSettles | hero_init.py:336-353 | on a well-formed combat the call succeeds and keeps it well formed, and every phase that will be posted is scheduled after the clock |
| TimedCombat.Tick | hero_init.py:366-370 | the clock moves to the next segment (segment 1 of the next round after 12) at DEX Infinity, skipping no segment of the turn |
| TimedCombat.TickKeepsLater | hero_init.py:363-370 | a slot after the clock that is not a strict candidate of its segment is still after the clock once it ticks |
| TimedCombat.MaxCandidateDex | hero_init.py:379-381 | the maximum slot DEX over the strict candidates of the clock's segment (always finite), absent exactly when there are none |
| TimedCombat.AdvanceFrom | hero_init.py:361-381 | the recursion ends at a clock strictly after the start, at a finite DEX where some combatant's slot is. The combatants are exactly those the first `calc_next_segments` at the start clock produced, so later settles reschedule nobody. Every slot that was after the start is still in place and not before the new clock |
| TimedCombat.AdvanceTime | hero_init.py:355-383 | the combatants are exactly what `calc_next_segments` makes of them at the old clock: a reached combatant whose trigger allows it gets its `calc_next_segment` slot, and the rest are untouched. The clock moves strictly forward to a finite DEX at which some combatant acts, and no slot after the old clock is before the new clock, so no pending action is skipped |

## Left out

- The Qt and GTK user interfaces, the table-model contract (`rowCount`, `data`, `headerData`, `FORMATTERS`, `HEADER_NAMES`) and the reset notifications: presentation only.
- The command shells (`MainCommand`, `shlexify`, the shell of the time-ordered engine) and the HTTP server and handler: text parsing, file reading, I/O and threads.
- `modify_combatant`: it only yields `get_combatant(key)` between two notifications; modelled as `GetCombatant` followed by the operation applied.
- The property setters of `Characteristic` (`int(newval)`) and the read-only combatant properties: trivial accessors.
- Lightning reflexes: run-time replacement of methods with closures. Without it every registered combatant acts at its own DEX, which `TimedCombat.Registered` requires.
- `Combatant.abort_phase`: it indexes `Time` with `[1]`, which `Time` does not support, so it has no behaviour beyond raising.
- `snapshot`, `__repr__`, `print_combatants`, `Time.as_tuple`, `get_all_pcs`, `get_now`, the `Time` comment and the update hooks: copying, printing and notification plumbing.
- Trigger functions are arbitrary Python callables; a slot's trigger is modelled as the value it returns, without side effects.
- Adding the same combatant object twice to a segment-state roster (aliasing): every added combatant is a distinct record.
- `int(spd)` and `int(dex)` in the segment-state constructors: the model takes integers.
- The float `Infinity` sentinel: DEX is `Finite(n)` or `Infinity`.
- Python's recursion limit, which `advance_time` can hit after very many empty segments.
- SegmentEngine.Next: requires that, after retiring the actor, somebody still has a pending phase in this turn or somebody's chart row is not empty. Without it the source loops forever, as `SegmentEngine.NextDivergesWithoutActors` shows. The same holds for CombatModel.Next and MainWindow.Next.
- TimedCombat.AdvanceTime: requires a well-formed combat with some combatant whose slot is after the clock or whose phase will be posted. Without such a combatant the source recurses without end (no combatants, or every trigger cancelling).
- TimedCombat.CalcNextSegments: Python raises on the first failing combatant in dict order, leaving the earlier ones updated; the model fails the whole call.
- TimedCombat.ThisSegment: returns the set of short names rather than a list of combatants in dict order, since dict order is unspecified.
- TimedCombat.ThisDex: as TimedCombat.ThisSegment.
- Characteristics.Split: splits at every "/", where the source passes a limit of two splits. A text with two or more "/" raises ValueError either way, so the constructor's outcomes are the same.
- Characteristics.ParseInt: `int()` is modelled for ASCII decimal text with an optional sign, after stripping ASCII whitespace; other numeral forms Python accepts are not.

=== FILE: characteristic.dfy ===
/** The `Characteristic` value of the segment-state engines: a current and a
    maximum value (STUN, BODY, END), built either from two numbers or from a
    text of the form "cur/max" or "value", and printed back as "cur/max".

    Python's `str.split`, `str.strip` and `int` are modelled only as far as
    the constructor uses them: splitting on one separator character,
    stripping ASCII whitespace, and decimal integers with an optional sign. */
module Characteristics {
  import opened Wrappers

  datatype Characteristic = Characteristic(cur: int, max: int)

  /** The constructor's first argument: either text or a number. */
  datatype Raw = Text(s: string) | Number(n: int)

  /** The characters Python 2's `str.strip()` removes. */
  predicate IsSpace(c: char) {
    c == ' ' || c == '\t' || c == '\n' || c == '\r' || c as int == 11 || c as int == 12
  }

  predicate IsDigit(c: char) {
    '0' as int <= c as int <= '9' as int
  }

  function StripLeft(s: string): (r: string)
    ensures |r| <= |s| && r == s[|s| - |r|..]
    ensures |r| > 0 ==> !IsSpace(r[0])
    ensures forall i :: 0 <= i < |s| - |r| ==> IsSpace(s[i])
  {
    if |s| > 0 && IsSpace(s[0]) then StripLeft(s[1..]) else s
  }

  function StripRight(s: string): (r: string)
    ensures |r| <= |s| && r == s[..|r|]
    ensures |r| > 0 ==> !IsSpace(r[|r| - 1])
    ensures forall i :: |r| <= i < |s| ==> IsSpace(s[i])
  {
    if |s| > 0 && IsSpace(s[|s| - 1]) then StripRight(s[..|s| - 1]) else s
  }

  /** `s.strip()`: `s` without leading and trailing whitespace. */
  function Strip(s: string): (r: string)
    ensures |r| > 0 ==> !IsSpace(r[0]) && !IsSpace(r[|r| - 1])
    ensures (forall i :: 0 <= i < |s| ==> !IsSpace(s[i])) ==> r == s
  {
    StripRight(StripLeft(s))
  }

  /** The stripped text is one contiguous piece of `s`, and everything
      around it is whitespace. */
  lemma StripTrims(s: string)
    ensures exists a :: Trimmed(s, a, Strip(s))
  {
    var l := StripLeft(s);
    var r := StripRight(l);
    var a := |s| - |l|;
    assert r == s[a..a + |r|];
    forall i | a + |r| <= i < |s|
      ensures IsSpace(s[i])
    {
      assert s[i] == l[i - a];
    }
    assert Trimmed(s, a, r) && Strip(s) == r;
  }

  /** `r` is the slice of `s` starting at `a`, and every character of `s`
      outside that slice is whitespace. */
  predicate Trimmed(s: string, a: int, r: string) {
    && 0 <= a && a + |r| <= |s| && r == s[a..a + |r|]
    && (forall i :: 0 <= i < a ==> IsSpace(s[i]))
    && (forall i :: a + |r| <= i < |s| ==> IsSpace(s[i]))
  }

  /** Text that neither starts nor ends with whitespace, padded with
      whitespace on either side, strips back to itself; in particular
      stripping is idempotent and leaves text without whitespace alone. */
  lemma StripPadded(pre: string, t: string, post: string)
    requires forall i :: 0 <= i < |pre| ==> IsSpace(pre[i])
    requires forall i :: 0 <= i < |post| ==> IsSpace(post[i])
    requires |t| > 0 ==> !IsSpace(t[0]) && !IsSpace(t[|t| - 1])
    ensures Strip(pre + t + post) == t
  {
    var s := pre + t + post;
    var r := Strip(s);
    StripTrims(s);
    var a :| Trimmed(s, a, r);
    if |t| == 0 {
      assert forall i :: 0 <= i < |s| ==> IsSpace(s[i]);
    } else {
      assert s[|pre|] == t[0] && s[|pre| + |t| - 1] == t[|t| - 1];
      assert s[|pre|..|pre| + |t|] == t;
    }
  }

  /** Stripping twice strips no more than once. */
  lemma StripIdempotent(s: string)
    ensures Strip(Strip(s)) == Strip(s)
  {
    StripPadded([], Strip(s), []);
    assert [] + Strip(s) + [] == Strip(s);
  }

  /** `s.split(sep)` for a one-character separator: the pieces between
      separators, in order; always at least one piece. */
  function Split(s: string, sep: char): (parts: seq<string>)
    ensures |parts| >= 1
    ensures forall k :: 0 <= k < |parts| ==> sep !in parts[k]
    decreases |s|
  {
    if |s| == 0 then [""]
    else
      var rest := Split(s[1..], sep);
      if s[0] == sep then [""] + rest
      else [[s[0]] + rest[0]] + rest[1..]
  }

  /** `sep.join(parts)`, the inverse of `Split`. */
  function Join(parts: seq<string>, sep: char): string
    requires |parts| >= 1
  {
    if |parts| == 1 then parts[0] else parts[0] + [sep] + Join(parts[1..], sep)
  }

  /** Splitting and joining again gives back the text. */
  lemma {:induction false} SplitJoin(s: string, sep: char)
    ensures Join(Split(s, sep), sep) == s
    decreases |s|
  {
    if |s| > 0 {
      SplitJoin(s[1..], sep);
      var rest := Split(s[1..], sep);
      if s[0] == sep {
        assert s == [sep] + s[1..];
      } else {
        if |rest| == 1 {
          assert s == [s[0]] + rest[0];
        } else {
          assert Join(rest, sep) == rest[0] + [sep] + Join(rest[1..], sep);
          assert s == [s[0]] + s[1..];
        }
      }
    }
  }

  /** A text free of the separator splits into itself alone. */
  lemma {:induction false} SplitWithoutSep(s: string, sep: char)
    ensures sep !in s ==> Split(s, sep) == [s]
    decreases |s|
  {
    if |s| > 0 && sep !in s {
      SplitWithoutSep(s[1..], sep);
      assert [s[0]] + s[1..] == s;
    }
  }

  /** A separator after a separator-free prefix ends the first piece. */
  lemma {:induction false} SplitAtFirstSep(a: string, b: string, sep: char)
    requires sep !in a
    ensures Split(a + [sep] + b, sep) == [a] + Split(b, sep)
    decreases |a|
  {
    if |a| == 0 {
      assert a + [sep] + b == [sep] + b;
      assert ([sep] + b)[1..] == b;
    } else {
      SplitAtFirstSep(a[1..], b, sep);
      assert (a + [sep] + b)[1..] == a[1..] + [sep] + b;
      assert [a[0]] + a[1..] == a;
    }
  }

  /** Value of a non-empty run of decimal digits. */
  function DigitsValue(ds: string): (n: nat)
    requires forall i :: 0 <= i < |ds| ==> IsDigit(ds[i])
  {
    if |ds| == 0 then 0
    else
      var last := ds[|ds| - 1];
      assert IsDigit(last);
      DigitsValue(ds[..|ds| - 1]) * 10 + (last as int - '0' as int)
  }

  predicate AllDigits(s: string) {
    |s| > 0 && forall i :: 0 <= i < |s| ==> IsDigit(s[i])
  }

  /** Python 2's `int(s)` on already-stripped text: an optional sign followed
      by at least one decimal digit; anything else is a ValueError (None). */
  function ParseInt(s: string): (r: Option<int>)
    ensures r.Some? <==> AllDigits(s) || (|s| > 1 && s[0] in {'+', '-'} && AllDigits(s[1..]))
    ensures |s| > 0 && IsSpace(s[0]) ==> r.None?
  {
    if AllDigits(s) then Some(DigitsValue(s))
    else if |s| > 1 && s[0] == '-' && AllDigits(s[1..]) then Some(0 - DigitsValue(s[1..]) as int)
    else if |s| > 1 && s[0] == '+' && AllDigits(s[1..]) then Some(DigitsValue(s[1..]))
    else None
  }

  /** Decimal text of a natural number, most significant digit first. */
  function NatToString(n: nat): (s: string)
    ensures AllDigits(s)
    decreases n
  {
    var d := [('0' as int + n % 10) as char];
    if n < 10 then d else NatToString(n / 10) + d
  }

  /** `str(n)` for an integer. */
  function IntToString(n: int): (s: string)
    ensures |s| > 0 && forall i :: 0 <= i < |s| ==> !IsSpace(s[i])
    ensures '/' !in s
  {
    if n < 0 then "-" + NatToString(-n) else NatToString(n)
  }

  lemma {:induction false} NatToStringValue(n: nat)
    ensures DigitsValue(NatToString(n)) == n
    decreases n
  {
    var s := NatToString(n);
    if n >= 10 {
      NatToStringValue(n / 10);
      assert s[..|s| - 1] == NatToString(n / 10);
    }
  }

  /** `int(str(n)) == n`. */
  lemma ParseIntToString(n: int)
    ensures ParseInt(IntToString(n)) == Some(n)
  {
    if n < 0 {
      NatToStringValue(-n);
      assert IntToString(n)[1..] == NatToString(-n);
    } else {
      NatToStringValue(n);
    }
  }

  /** `Characteristic(current, maxval)`: a number keeps `maxval`, defaulting
      to `current`; a text is split at "/" into at most two stripped integers,
      and a single value is used for both. */
  function NewCharacteristic(current: Raw, maxval: Option<int>): (r: Result<Characteristic>)
    ensures current.Number? ==>
      r.Ok? && r.value.cur == current.n
      && r.value.max == (if maxval.Some? then maxval.value else current.n)
    ensures current.Text? && '/' !in current.s ==>
      (r.Ok? <==> ParseInt(Strip(current.s)).Some?)
      && (r.Ok? ==> r.value.cur == r.value.max == ParseInt(Strip(current.s)).value)
    ensures current.Text? && |Split(current.s, '/')| > 2 ==> r == Err(ValueError)
    ensures r.Err? ==> r.error == ValueError
  {
    match current
    case Number(n) =>
      Ok(Characteristic(n, if maxval.Some? then maxval.value else n))
    case Text(s) =>
      SplitWithoutSep(s, '/');
      var parts := Split(s, '/');
      if |parts| > 2 then Err(ValueError)
      else
        var curText := Strip(parts[0]);
        var maxText := if |parts| == 1 then curText else Strip(parts[1]);
        match (ParseInt(curText), ParseInt(maxText))
        case (Some(c), Some(m)) => Ok(Characteristic(c, m))
        case _ => Err(ValueError)
  }

  /** A text of two "/"-separated parts gives a characteristic exactly when
      both stripped parts are integers: the first is the current value, the
      second the maximum, whatever `maxval` says. */
  lemma NewCharacteristicTwoParts(s: string, maxval: Option<int>)
    requires |Split(s, '/')| == 2
    ensures var parts := Split(s, '/');
      var r := NewCharacteristic(Text(s), maxval);
      && (r.Ok? <==> ParseInt(Strip(parts[0])).Some? && ParseInt(Strip(parts[1])).Some?)
      && (r.Ok? ==> r.value == Characteristic(ParseInt(Strip(parts[0])).value, ParseInt(Strip(parts[1])).value))
  {
  }

  /** `str(characteristic)`: "cur/max". */
  function Format(c: Characteristic): string {
    IntToString(c.cur) + "/" + IntToString(c.max)
  }

  /** Reading back the printed form of a characteristic gives the same
      characteristic. */
  lemma FormatRoundTrip(c: Characteristic, maxval: Option<int>)
    ensures NewCharacteristic(Text(Format(c)), maxval) == Ok(c)
  {
    var a := IntToString(c.cur);
    var b := IntToString(c.max);
    SplitAtFirstSep(a, b, '/');
    SplitWithoutSep(b, '/');
    assert Format(c) == a + ['/'] + b;
    assert Split(Format(c), '/') == [a, b];
    assert Strip(a) == a && Strip(b) == b;
    ParseIntToString(c.cur);
    ParseIntToString(c.max);
  }
}

=== FILE: combat_model.dfy ===
/** The second generation of the segment-state engine: cells are the
    enumeration `States` and an acted phase becomes PAST.

    The 0/1 speed chart is converted once into rows of NONE and FUTURE; every
    operation is the shared engine applied to these codes. */
module CombatModel {
  import opened Wrappers
  import SpeedChart
  import opened Characteristics
  import E = SegmentEngine

  /** `States`: NONE, PAST, ABORT, NOW, FUTURE. ABORT is declared but never
      written by the engine. */
  datatype State = NoPhase | Past | Abort | Now | Future

  const CODES: E.Codes<State> := E.Codes(NoPhase, Future, Now, Past)

  lemma CodesValid()
    ensures E.ValidCodes(CODES)
  {
  }

  /** After conversion every chart cell is NONE or FUTURE, FUTURE exactly
      where the 0/1 chart has a 1; row 0 is all NONE and row 12 all FUTURE. */
  lemma ConvertedChart()
    ensures forall spd, i :: 0 <= spd < SpeedChart.ROWS && 0 <= i < E.SEGMENTS ==>
      E.ChartRow(CODES, spd)[i] in {NoPhase, Future}
    ensures forall spd, i :: 0 <= spd < SpeedChart.ROWS && 0 <= i < E.SEGMENTS ==>
      (E.ChartRow(CODES, spd)[i] == Future <==> SpeedChart.MATRIX[spd][i] == 1)
    ensures forall i :: 0 <= i < E.SEGMENTS ==>
      E.ChartRow(CODES, 0)[i] == NoPhase && E.ChartRow(CODES, 12)[i] == Future
  {
    SpeedChart.MatrixShape();
  }

  /** `Combatant(name, spd, dex, stun, body, end, status="", kind="PC")`. */
  function NewCombatant(name: string, spd: int, dex: int, stun: Raw, body: Raw, end: Raw,
                        status: string := "", kind: string := "PC"): (r: Result<E.Combatant<State>>)
    ensures r.Ok? <==>
      && NewCharacteristic(stun, None).Ok?
      && NewCharacteristic(body, None).Ok?
      && NewCharacteristic(end, None).Ok?
      && -13 <= spd <= 12
    ensures r.Ok? ==> E.ValidCombatant(r.value) && r.value.kind == Some(kind) && r.value.status == status
    ensures r.Ok? ==> r.value.name == name && r.value.spd == spd && r.value.dex == dex
    ensures r.Ok? ==>
      && r.value.stun == NewCharacteristic(stun, None).value
      && r.value.body == NewCharacteristic(body, None).value
      && r.value.end == NewCharacteristic(end, None).value
    ensures r.Ok? ==> forall i :: 0 <= i < E.SEGMENTS ==>
      r.value.segment[i] in {NoPhase, Future}
      && (r.value.segment[i] == Future <==> i + 1 in SpeedChart.SegmentsFor(spd).value)
  {
    var r := E.NewCombatant(CODES, name, spd, dex, stun, body, end, status, Some(kind));
    if r.Ok? then
      assert E.NextTurn(CODES, r.value) == r.value;
      r
    else r
  }

  /** `change_spd` in this encoding: the result holds only NONE and FUTURE,
      so a NOW mark of the acting combatant is lost. */
  method ChangeSpd(c: E.Combatant<State>, newspd: int) returns (r: Result<E.Combatant<State>>)
    requires |c.segment| == E.SEGMENTS
    ensures r.Err? <==> !(0 <= newspd <= 12)
    ensures r.Err? ==> r.error == AssertionError
    ensures r.Ok? ==> r.value == c.(spd := newspd, segment := r.value.segment)
    ensures r.Ok? ==> E.MergedSchedule(CODES, c.segment, E.RowFor(CODES, newspd).value, r.value.segment)
    ensures r.Ok? ==> Now !in r.value.segment && Past !in r.value.segment
    ensures r.Ok? && Future !in c.segment ==> forall i :: 0 <= i < E.SEGMENTS ==> r.value.segment[i] == NoPhase
  {
    r := E.ChangeSpd(CODES, c, newspd);
  }

  /** `next()` in this encoding: the acting combatant's cell at the old
      cursor becomes PAST and stays PAST for the rest of the turn; the new
      actor's cell becomes NOW. */
  method Next(e: E.Engine<State>) returns (r: E.Engine<State>)
    requires E.WellFormed(e) && E.Terminates(CODES, e)
    ensures E.WellFormed(r) && r.current.At? && |r.combatants| == |e.combatants|
    ensures exists n ::
      && 0 <= n < 2 * E.SEGMENTS && E.StopsAfter(CODES, e, n)
      && r == E.Pick(CODES, E.IncrementN(CODES, E.Retire(CODES, e), n))
    ensures r.turn == e.turn || r.turn == e.turn + 1
    ensures r.turn == e.turn ==> r.seg >= e.seg
    ensures r.combatants[r.current.index].segment[r.seg - 1] == Now
    ensures E.SelectedIsFirstBest(CODES, r)
    ensures e.current.At? && r.turn == e.turn ==> r.combatants[e.current.index].segment[e.seg - 1] == Past
    ensures E.NowOnlyAtCurrent(CODES, e) ==> E.NowOnlyAtCurrent(CODES, r)
  {
    r := E.Next(CODES, e);
  }
}

=== FILE: main_window.dfy ===
/** The first generation of the segment-state engine: cells are the
    integers of `STATES` (NONE 0, FUTURE 1, NOW 2, ABORT 3) and an acted
    phase goes back to NONE.

    Because FUTURE is 1 and NONE is 0, a row of the 0/1 chart is already a
    vector of states and is used unconverted. */
module MainWindow {
  import opened Wrappers
  import SpeedChart
  import opened Characteristics
  import E = SegmentEngine

  const NONE: int := 0
  const FUTURE: int := 1
  const NOW: int := 2
  const ABORT: int := 3

  const CODES: E.Codes<int> := E.Codes(NONE, FUTURE, NOW, NONE)

  lemma CodesValid()
    ensures E.ValidCodes(CODES)
  {
  }

  /** The engine's chart row in this encoding is the 0/1 chart row itself. */
  lemma ChartRowIsMatrixRow(spd: nat)
    requires spd < SpeedChart.ROWS
    ensures E.ChartRow(CODES, spd) == SpeedChart.MATRIX[spd]
  {
    SpeedChart.MatrixShape();
  }

  /** `Combatant(name, spd, dex, stun, body, end, status="")`: this
      generation has no `kind`, and the vector is the 0/1 chart row. */
  function NewCombatant(name: string, spd: int, dex: int, stun: Raw, body: Raw, end: Raw,
                        status: string := ""): (r: Result<E.Combatant<int>>)
    ensures r.Ok? <==>
      && NewCharacteristic(stun, None).Ok?
      && NewCharacteristic(body, None).Ok?
      && NewCharacteristic(end, None).Ok?
      && -13 <= spd <= 12
    ensures r.Ok? ==> r.value.kind.None? && r.value.status == status
    ensures r.Ok? ==> r.value.name == name && r.value.spd == spd && r.value.dex == dex
    ensures r.Ok? ==>
      && r.value.stun == NewCharacteristic(stun, None).value
      && r.value.body == NewCharacteristic(body, None).value
      && r.value.end == NewCharacteristic(end, None).value
    ensures r.Ok? ==> r.value.segment == SpeedChart.MATRIX[SpeedChart.PyIndex(spd, SpeedChart.ROWS).value]
  {
    var r := E.NewCombatant(CODES, name, spd, dex, stun, body, end, status, None);
    if r.Ok? then
      ChartRowIsMatrixRow(SpeedChart.PyIndex(spd, SpeedChart.ROWS).value);
      r
    else r
  }

  /** `change_spd` in this encoding: the result holds only 0 and 1, 1 only
      where the new chart row has it and not before the first 1 of the old
      vector. */
  method ChangeSpd(c: E.Combatant<int>, newspd: int) returns (r: Result<E.Combatant<int>>)
    requires |c.segment| == E.SEGMENTS
    ensures r.Err? <==> !(0 <= newspd <= 12)
    ensures r.Err? ==> r.error == AssertionError
    ensures r.Ok? ==> r.value == c.(spd := newspd, segment := r.value.segment)
    ensures r.Ok? ==> E.MergedSchedule(CODES, c.segment, SpeedChart.MATRIX[newspd], r.value.segment)
    ensures r.Ok? ==> forall i :: 0 <= i < E.SEGMENTS ==>
      && r.value.segment[i] in {NONE, FUTURE}
      && (r.value.segment[i] == FUTURE ==> SpeedChart.MATRIX[newspd][i] == 1)
      && (r.value.segment[i] == FUTURE ==> exists j :: 0 <= j <= i && c.segment[j] == FUTURE)
  {
    ChartRowIsMatrixRow(if 0 <= newspd <= 12 then newspd else 0);
    r := E.ChangeSpd(CODES, c, newspd);
  }

  /** `next()` in this encoding: the acting combatant's cell at the old
      cursor goes back to NONE and stays NONE for the rest of the turn; the
      new actor's cell becomes NOW. */
  method Next(e: E.Engine<int>) returns (r: E.Engine<int>)
    requires E.WellFormed(e) && E.Terminates(CODES, e)
    ensures E.WellFormed(r) && r.current.At? && |r.combatants| == |e.combatants|
    ensures exists n ::
      && 0 <= n < 2 * E.SEGMENTS && E.StopsAfter(CODES, e, n)
      && r == E.Pick(CODES, E.IncrementN(CODES, E.Retire(CODES, e), n))
    ensures r.turn == e.turn || r.turn == e.turn + 1
    ensures r.turn == e.turn ==> r.seg >= e.seg
    ensures r.combatants[r.current.index].segment[r.seg - 1] == NOW
    ensures E.SelectedIsFirstBest(CODES, r)
    ensures e.current.At? && r.turn == e.turn ==> r.combatants[e.current.index].segment[e.seg - 1] == NONE
    ensures E.NowOnlyAtCurrent(CODES, e) ==> E.NowOnlyAtCurrent(CODES, r)
  {
    r := E.Next(CODES, e);
  }
}

=== FILE: schedule.dfy ===
/** The chart functions of the time-ordered engine: `spd_string`, which
    draws a speed's segments as a row of marks, and `next_common_speed`,
    which finds the next segment two speeds share. */
module Schedule {
  import opened Wrappers
  import SpeedChart

  /** `filter(lambda seg: seg >= lo, xs)`. */
  function AtLeast(xs: seq<int>, lo: int): seq<int> {
    if |xs| == 0 then []
    else (if xs[0] >= lo then [xs[0]] else []) + AtLeast(xs[1..], lo)
  }

  /** Filtering by a lower bound keeps exactly the elements at or above it. */
  lemma {:induction false} AtLeastMembers(xs: seq<int>, lo: int)
    ensures forall x :: x in AtLeast(xs, lo) <==> x in xs && x >= lo
    decreases |xs|
  {
    if |xs| > 0 {
      AtLeastMembers(xs[1..], lo);
      assert xs == [xs[0]] + xs[1..];
    }
  }

  /** `filter(lambda seg: seg in ys, xs)`. */
  function Common(xs: seq<int>, ys: seq<int>): seq<int> {
    if |xs| == 0 then []
    else (if xs[0] in ys then [xs[0]] else []) + Common(xs[1..], ys)
  }

  /** Filtering by membership in `ys` keeps exactly the shared elements. */
  lemma {:induction false} CommonMembers(xs: seq<int>, ys: seq<int>)
    ensures forall x :: x in Common(xs, ys) <==> x in xs && x in ys
    decreases |xs|
  {
    if |xs| > 0 {
      CommonMembers(xs[1..], ys);
      assert xs == [xs[0]] + xs[1..];
    }
  }

  /** `min(xs)`; Python raises ValueError on an empty list. */
  function Min(xs: seq<int>): (m: int)
    requires |xs| > 0
    ensures m in xs && forall x :: x in xs ==> m <= x
  {
    if |xs| == 1 then xs[0]
    else
      var rest := Min(xs[1..]);
      assert forall x :: x in xs ==> x == xs[0] || x in xs[1..];
      if xs[0] <= rest then xs[0] else rest
  }

  /** Strictly increasing lists without a bound on their values. */
  predicate Increasing(xs: seq<int>) {
    forall i, j :: 0 <= i < j < |xs| ==> xs[i] < xs[j]
  }

  /** Every later element of an increasing list is above its head. */
  lemma TailAboveHead(xs: seq<int>)
    requires Increasing(xs) && |xs| > 0
    ensures forall x :: x in xs[1..] ==> x > xs[0]
  {
    forall x | x in xs[1..]
      ensures x > xs[0]
    {
      var k :| 0 <= k < |xs[1..]| && xs[1..][k] == x;
      assert xs[k + 1] == x;
    }
  }

  /** On an increasing list, raising the bound by one drops `lo` itself if
      present and nothing else. */
  lemma {:induction false} AtLeastStep(xs: seq<int>, lo: int)
    requires Increasing(xs)
    ensures AtLeast(xs, lo) == (if lo in xs then [lo] else []) + AtLeast(xs, lo + 1)
    decreases |xs|
  {
    if |xs| > 0 {
      var rest := xs[1..];
      assert Increasing(rest);
      AtLeastStep(rest, lo);
      TailAboveHead(xs);
      assert xs == [xs[0]] + rest;
      if xs[0] > lo {
        assert lo !in rest && lo !in xs;
        assert AtLeast(xs, lo) == [xs[0]] + AtLeast(rest, lo);
        assert AtLeast(xs, lo + 1) == [xs[0]] + AtLeast(rest, lo + 1);
      } else if xs[0] == lo {
        assert lo !in rest && lo in xs;
        assert AtLeast(xs, lo) == [lo] + AtLeast(rest, lo);
        assert AtLeast(xs, lo + 1) == [] + AtLeast(rest, lo + 1);
      } else {
        assert lo in xs <==> lo in rest;
        assert AtLeast(xs, lo) == [] + AtLeast(rest, lo);
        assert AtLeast(xs, lo + 1) == [] + AtLeast(rest, lo + 1);
      }
    }
  }

  /** With every element below `lo`, filtering keeps nothing. */
  lemma {:induction false} AtLeastNone(xs: seq<int>, lo: int)
    requires forall x :: x in xs ==> x < lo
    ensures AtLeast(xs, lo) == []
    decreases |xs|
  {
    if |xs| > 0 {
      assert xs[0] in xs;
      assert forall x :: x in xs[1..] ==> x in xs;
      AtLeastNone(xs[1..], lo);
    }
  }

  /** With no element below `lo`, filtering keeps the whole list. */
  lemma {:induction false} AtLeastAll(xs: seq<int>, lo: int)
    requires forall x :: x in xs ==> x >= lo
    ensures AtLeast(xs, lo) == xs
    decreases |xs|
  {
    if |xs| > 0 {
      assert xs[0] in xs;
      assert forall x :: x in xs[1..] ==> x in xs;
      AtLeastAll(xs[1..], lo);
      assert [xs[0]] + xs[1..] == xs;
    }
  }

  /** Mark of segment `s` for a row: "X" when listed, "." otherwise. */
  function Mark(segs: seq<int>, s: int): char {
    if s in segs then 'X' else '.'
  }

  /** The mark of segment `i + 1` in a drawn row. */
  function TokenAt(s: string, i: nat): char
    requires 2 * i < |s|
  {
    s[2 * i]
  }

  /** `spd_string(spd)`: the twelve marks for segments 1..12, joined by
      single spaces; an SPD outside the chart's index range raises IndexError. */
  function SpdString(spd: int): (r: Result<string>)
    ensures r.Ok? <==> -13 <= spd <= 12
    ensures r.Err? ==> r.error == IndexError
    ensures r.Ok? ==> |r.value| == 2 * SpeedChart.SEGMENTS - 1
    ensures r.Ok? ==> forall i :: 0 <= i < SpeedChart.SEGMENTS ==>
      TokenAt(r.value, i) in {'X', '.'}
      && (TokenAt(r.value, i) == 'X' <==> i + 1 in SpeedChart.SegmentsFor(spd).value)
    ensures r.Ok? ==> forall i :: 0 <= i < |r.value| && i % 2 == 1 ==> r.value[i] == ' '
  {
    match SpeedChart.SegmentsFor(spd)
    case None => Err(IndexError)
    case Some(segs) =>
      Ok(seq(2 * SpeedChart.SEGMENTS - 1, j requires 0 <= j =>
        if j % 2 == 1 then ' ' else Mark(segs, j / 2 + 1)))
  }

  /** Reading drawn marks back: `t` holds the marks of segments `first`
      onwards, separated by single characters; the result lists the
      segments marked "X", in increasing order. */
  function MarkedFrom(t: string, first: int): seq<int>
    decreases |t|
  {
    if |t| == 0 then []
    else (if t[0] == 'X' then [first] else []) + MarkedFrom(if |t| >= 2 then t[2..] else [], first + 1)
  }

  /** The segments a drawn row marks. */
  function MarkedSegments(s: string): seq<int> {
    MarkedFrom(s, 1)
  }

  /** The marks of segments `i + 1` onwards of a drawn row. */
  function Suffix(s: string, i: nat): string
    requires |s| == 2 * SpeedChart.SEGMENTS - 1 && i <= SpeedChart.SEGMENTS
  {
    if i == SpeedChart.SEGMENTS then [] else s[2 * i..]
  }

  /** A drawn row whose marks follow an increasing list of segments reads
      back as that list, from any segment on. */
  lemma {:induction false} MarkedFromRow(s: string, segs: seq<int>, i: nat)
    requires |s| == 2 * SpeedChart.SEGMENTS - 1 && i <= SpeedChart.SEGMENTS
    requires Increasing(segs) && forall x :: x in segs ==> 1 <= x <= SpeedChart.SEGMENTS
    requires forall j :: 0 <= j < SpeedChart.SEGMENTS ==> (TokenAt(s, j) == 'X' <==> j + 1 in segs)
    ensures MarkedFrom(Suffix(s, i), i + 1) == AtLeast(segs, i + 1)
    decreases SpeedChart.SEGMENTS - i
  {
    if i == SpeedChart.SEGMENTS {
      AtLeastNone(segs, i + 1);
    } else {
      MarkedFromRow(s, segs, i + 1);
      AtLeastStep(segs, i + 1);
      MarkedFromStep(s, i);
    }
  }

  /** Reading from segment `i + 1` on is its mark followed by the reading
      from segment `i + 2` on. */
  lemma MarkedFromStep(s: string, i: nat)
    requires |s| == 2 * SpeedChart.SEGMENTS - 1 && i < SpeedChart.SEGMENTS
    ensures MarkedFrom(Suffix(s, i), i + 1)
      == (if TokenAt(s, i) == 'X' then [i + 1] else []) + MarkedFrom(Suffix(s, i + 1), i + 2)
  {
    var t := s[2 * i..];
    assert t[0] == TokenAt(s, i);
    if i + 1 < SpeedChart.SEGMENTS {
      assert t[2..] == s[2 * (i + 1)..];
    } else {
      assert |t| == 1;
    }
  }

  /** A drawn row whose marks follow an increasing list of segments reads
      back as exactly that list. */
  lemma MarkedSegmentsOf(s: string, segs: seq<int>)
    requires |s| == 2 * SpeedChart.SEGMENTS - 1
    requires Increasing(segs) && forall x :: x in segs ==> 1 <= x <= SpeedChart.SEGMENTS
    requires forall j :: 0 <= j < SpeedChart.SEGMENTS ==> (TokenAt(s, j) == 'X' <==> j + 1 in segs)
    ensures MarkedSegments(s) == segs
  {
    MarkedFromRow(s, segs, 0);
    assert s[0..] == s;
    AtLeastAll(segs, 1);
  }

  /** Drawing a speed's row and reading the marks back gives the chart row. */
  lemma SpdStringRoundTrip(spd: int)
    requires -13 <= spd <= 12
    ensures MarkedSegments(SpdString(spd).value) == SpeedChart.SegmentsFor(spd).value
  {
    var segs := SpeedChart.SegmentsFor(spd).value;
    SpeedChart.SegmentListShape(SpeedChart.PyIndex(spd, SpeedChart.ROWS).value);
    MarkedSegmentsOf(SpdString(spd).value, segs);
  }

  /** Segment `s` is scheduled for both speeds. */
  predicate Shared(oldspd: int, newspd: int, s: int)
    requires -13 <= oldspd <= 12 && -13 <= newspd <= 12
  {
    s in SpeedChart.SegmentsFor(oldspd).value && s in SpeedChart.SegmentsFor(newspd).value
  }

  /** `next_common_speed(rnd, curseg, oldspd, newspd)`: the first segment at
      or after `curseg` that both speeds share, in this round; failing that,
      the first shared segment of the next round. An SPD outside the chart
      raises IndexError, and two speeds sharing no segment make `min` raise
      ValueError. */
  function NextCommonSpeed(rnd: int, curseg: int, oldspd: int, newspd: int): (r: Result<(int, int)>)
    ensures r.Err? <==>
      || !(-13 <= oldspd <= 12) || !(-13 <= newspd <= 12)
      || (forall s :: !Shared(oldspd, newspd, s))
    ensures r.Err? && -13 <= oldspd <= 12 && -13 <= newspd <= 12 ==> r.error == ValueError
    ensures r.Err? && !(-13 <= oldspd <= 12 && -13 <= newspd <= 12) ==> r.error == IndexError
    ensures r.Ok? ==> Shared(oldspd, newspd, r.value.1)
    ensures r.Ok? ==> (r.value.0 == rnd <==> exists s :: Shared(oldspd, newspd, s) && s >= curseg)
    ensures r.Ok? && r.value.0 != rnd ==> r.value.0 == rnd + 1
    ensures r.Ok? && r.value.0 == rnd ==>
      r.value.1 >= curseg
      && forall s :: Shared(oldspd, newspd, s) && s >= curseg ==> r.value.1 <= s
    ensures r.Ok? && r.value.0 == rnd + 1 ==>
      forall s :: Shared(oldspd, newspd, s) ==> r.value.1 <= s
  {
    match (SpeedChart.SegmentsFor(oldspd), SpeedChart.SegmentsFor(newspd))
    case (Some(oldsegs), Some(newsegs)) =>
      var common := Common(oldsegs, newsegs);
      var future := AtLeast(common, curseg);
      CommonMembers(oldsegs, newsegs);
      AtLeastMembers(common, curseg);
      assert forall s :: Shared(oldspd, newspd, s) <==> s in common;
      if |future| == 0 then
        if |common| == 0 then Err(ValueError) else Ok((rnd + 1, Min(common)))
      else Ok((rnd, Min(future)))
    case _ => Err(IndexError)
  }

  /** SPD 0 has no segment, so it shares none with any speed. */
  lemma ZeroSpeedHasNoCommonSegment(rnd: int, curseg: int, spd: int)
    ensures NextCommonSpeed(rnd, curseg, 0, spd).Err?
    ensures NextCommonSpeed(rnd, curseg, spd, 0).Err?
  {
  }

  /** SPD 1 acts only in segment 7, so SPD 1 and SPD 2 share no segment. */
  lemma SpeedOneAndTwoHaveNoCommonSegment(rnd: int, curseg: int)
    ensures NextCommonSpeed(rnd, curseg, 1, 2) == Err(ValueError)
  {
    assert SpeedChart.SegmentsFor(1).value == [7];
    assert SpeedChart.SegmentsFor(2).value == [6, 12];
  }
}

=== FILE: segment_engine.dfy ===
/** The segment-state initiative engine shared by both generations of the Qt
    speed-chart model.

    Every combatant carries a twelve-cell vector, one cell per segment of the
    turn; the engine holds a (turn, segment) cursor and the combatant that is
    acting now. `Next` retires the acting combatant, walks the cursor forward
    to the first segment in which somebody still has a pending phase, and
    picks the highest-DEX such combatant, the first in list order on ties.

    The two generations differ only in how a cell is encoded and in what the
    retired cell becomes, so the engine is written once over a `Codes` record
    naming the four cell values it needs. */
module SegmentEngine {
  import opened Wrappers
  import SpeedChart
  import opened Characteristics

  const SEGMENTS := SpeedChart.SEGMENTS

  /** The cell values one engine generation uses: a segment with no phase,
      a pending phase, the phase acting now, and what an acted phase becomes. */
  datatype Codes<S> = Codes(none: S, future: S, now: S, retired: S)

  predicate ValidCodes<S(==)>(k: Codes<S>) {
    && k.future != k.none && k.future != k.now && k.future != k.retired
    && k.now != k.none && k.now != k.retired
  }

  /** Row `row` of the speed chart in this encoding: a pending phase where the
      0/1 chart has a 1, no phase elsewhere. */
  function ChartRow<S>(k: Codes<S>, row: nat): (r: seq<S>)
    requires row < SpeedChart.ROWS
    ensures |r| == SEGMENTS
  {
    SpeedChart.MatrixShape();
    seq(SEGMENTS, i requires 0 <= i < SEGMENTS =>
      if SpeedChart.MATRIX[row][i] == 1 then k.future else k.none)
  }

  /** `SPEED_CHART[spd]` with Python indexing: None where it raises IndexError. */
  function RowFor<S>(k: Codes<S>, spd: int): (r: Option<seq<S>>)
    ensures r.Some? <==> -13 <= spd <= 12
    ensures r.Some? ==> |r.value| == SEGMENTS
  {
    match SpeedChart.PyIndex(spd, SpeedChart.ROWS)
    case None => None
    case Some(row) => Some(ChartRow(k, row))
  }

  /** A cell of the chart in this encoding is a pending phase exactly when the
      list chart schedules that segment for that SPD, and no phase otherwise. */
  lemma ChartRowMatchesSegments<S>(k: Codes<S>, spd: int, s: int)
    requires ValidCodes(k)
    requires -13 <= spd <= 12 && 1 <= s <= SEGMENTS
    ensures RowFor(k, spd).value[s - 1] == k.future <==> s in SpeedChart.SegmentsFor(spd).value
    ensures RowFor(k, spd).value[s - 1] in {k.none, k.future}
  {
    var row := SpeedChart.PyIndex(spd, SpeedChart.ROWS).value;
    SpeedChart.ChartsAgree(row, s);
    assert RowFor(k, spd).value[s - 1] == ChartRow(k, row)[s - 1];
  }

  /** A combatant record. `kind` is absent in the older generation. */
  datatype Combatant<S> = Combatant(
    name: string,
    spd: int,
    dex: int,
    stun: Characteristic,
    body: Characteristic,
    end: Characteristic,
    status: string,
    kind: Option<string>,
    segment: seq<S>)

  /** A record the constructor can produce: its SPD indexes the chart and it
      has one cell per segment. */
  predicate ValidCombatant<S>(c: Combatant<S>) {
    -13 <= c.spd <= 12 && |c.segment| == SEGMENTS
  }

  /** The combatant's vector is exactly its chart row, as at the start of a turn. */
  predicate Fresh<S(==)>(k: Codes<S>, c: Combatant<S>) {
    RowFor(k, c.spd) == Some(c.segment)
  }

  /** `_next_turn`: the vector becomes the chart row for the combatant's SPD;
      a segment holds a pending phase exactly when the chart lists it. */
  function NextTurn<S(==)>(k: Codes<S>, c: Combatant<S>): (r: Combatant<S>)
    requires ValidCodes(k) && -13 <= c.spd <= 12
    ensures ValidCombatant(r) && Fresh(k, r)
    ensures r == c.(segment := r.segment)
    ensures forall j :: 0 <= j < SEGMENTS ==>
      (r.segment[j] == k.future <==> j + 1 in SpeedChart.SegmentsFor(c.spd).value)
    ensures forall j :: 0 <= j < SEGMENTS ==> r.segment[j] == k.none || r.segment[j] == k.future
  {
    var r := c.(segment := RowFor(k, c.spd).value);
    forall j | 0 <= j < SEGMENTS
      ensures (r.segment[j] == k.future <==> j + 1 in SpeedChart.SegmentsFor(c.spd).value)
      ensures r.segment[j] == k.none || r.segment[j] == k.future
    {
      ChartRowMatchesSegments(k, c.spd, j + 1);
    }
    r
  }

  /** The constructor: parses the three characteristics, then derives the
      vector from the chart. A malformed characteristic raises ValueError and
      an SPD outside the chart's Python index range raises IndexError. */
  function NewCombatant<S(==)>(k: Codes<S>, name: string, spd: int, dex: int,
                               stun: Raw, body: Raw, end: Raw,
                               status: string, kind: Option<string>): (r: Result<Combatant<S>>)
    requires ValidCodes(k)
    ensures r.Ok? <==>
      && NewCharacteristic(stun, None).Ok?
      && NewCharacteristic(body, None).Ok?
      && NewCharacteristic(end, None).Ok?
      && -13 <= spd <= 12
    ensures r.Err? && -13 <= spd <= 12 ==> r.error == ValueError
    ensures (r.Err? && NewCharacteristic(stun, None).Ok? && NewCharacteristic(body, None).Ok?
             && NewCharacteristic(end, None).Ok?) ==> r.error == IndexError
    ensures r.Ok? ==>
      && ValidCombatant(r.value) && Fresh(k, r.value)
      && r.value.name == name && r.value.spd == spd && r.value.dex == dex
      && r.value.status == status && r.value.kind == kind
      && r.value.stun == NewCharacteristic(stun, None).value
      && r.value.body == NewCharacteristic(body, None).value
      && r.value.end == NewCharacteristic(end, None).value
  {
    var st :- NewCharacteristic(stun, None);
    var bo :- NewCharacteristic(body, None);
    var en :- NewCharacteristic(end, None);
    match RowFor(k, spd)
    case None => Err(IndexError)
    case Some(row) => Ok(Combatant(name, spd, dex, st, bo, en, status, kind, row))
  }

  /** `combatant[idx]`: the cell of segment `idx`, counted from 1; any other
      index fails the source's assertion. */
  function GetSegment<S>(c: Combatant<S>, idx: int): (r: Result<S>)
    requires |c.segment| == SEGMENTS
    ensures r.Ok? <==> 1 <= idx <= SEGMENTS
    ensures r.Err? ==> r.error == AssertionError
    ensures r.Ok? ==> r.value == c.segment[idx - 1]
  {
    if 1 <= idx <= SEGMENTS then Ok(c.segment[idx - 1]) else Err(AssertionError)
  }

  /** `combatant[idx] = state`, with the same index rule as reading. */
  function SetSegment<S>(c: Combatant<S>, idx: int, state: S): (r: Result<Combatant<S>>)
    requires |c.segment| == SEGMENTS
    ensures r.Ok? <==> 1 <= idx <= SEGMENTS
    ensures r.Err? ==> r.error == AssertionError
    ensures r.Ok? ==> |r.value.segment| == SEGMENTS && r.value == c.(segment := r.value.segment)
  {
    if 1 <= idx <= SEGMENTS then Ok(c.(segment := c.segment[idx - 1 := state]))
    else Err(AssertionError)
  }

  /** Writing a cell and reading it back gives the written state; every other
      cell reads as before. */
  lemma SetThenGet<S>(c: Combatant<S>, idx: int, state: S, other: int)
    requires |c.segment| == SEGMENTS && 1 <= idx <= SEGMENTS
    ensures GetSegment(SetSegment(c, idx, state).value, idx) == Ok(state)
    ensures other != idx ==> GetSegment(SetSegment(c, idx, state).value, other) == GetSegment(c, other)
  {
  }

  /** Index of the first pending phase of a vector, if any. */
  function FirstFuture<S(==)>(k: Codes<S>, v: seq<S>): (r: Option<nat>)
    ensures r.Some? ==> r.value < |v| && v[r.value] == k.future
    ensures r.Some? ==> forall i :: 0 <= i < r.value ==> v[i] != k.future
    ensures r.None? ==> forall i :: 0 <= i < |v| ==> v[i] != k.future
  {
    if |v| == 0 then None
    else if v[0] == k.future then Some(0)
    else match FirstFuture(k, v[1..])
      case None => None
      case Some(i) => Some(i + 1)
  }

  /** The vector `change_spd` leaves: no phase before the first pending phase
      of the old vector, the new chart row from there on, and no phase at all
      when the old vector has no pending phase. */
  ghost predicate MergedSchedule<S>(k: Codes<S>, prior: seq<S>, row: seq<S>, merged: seq<S>)
    requires |prior| == |row| == SEGMENTS
  {
    && |merged| == SEGMENTS
    && match FirstFuture(k, prior)
       case None => forall i :: 0 <= i < SEGMENTS ==> merged[i] == k.none
       case Some(f) =>
         && (forall i :: 0 <= i < f ==> merged[i] == k.none)
         && (forall i :: f <= i < SEGMENTS ==> merged[i] == row[i])
  }

  /** `change_spd`: asserts 0 <= newspd <= 12, adopts the new SPD, and merges
      the new chart row with the old vector so that no segment before the
      first still-pending old phase becomes available. */
  method ChangeSpd<S(==)>(k: Codes<S>, c: Combatant<S>, newspd: int) returns (r: Result<Combatant<S>>)
    requires ValidCodes(k) && |c.segment| == SEGMENTS
    ensures r.Err? <==> !(0 <= newspd <= 12)
    ensures r.Err? ==> r.error == AssertionError
    ensures r.Ok? ==> r.value == c.(spd := newspd, segment := r.value.segment)
    ensures r.Ok? ==> MergedSchedule(k, c.segment, RowFor(k, newspd).value, r.value.segment)
    ensures r.Ok? ==> forall i :: 0 <= i < SEGMENTS && r.value.segment[i] == k.future ==>
      RowFor(k, newspd).value[i] == k.future && exists j :: 0 <= j <= i && c.segment[j] == k.future
    ensures r.Ok? ==> forall i :: 0 <= i < SEGMENTS ==> r.value.segment[i] in {k.none, k.future}
  {
    if !(0 <= newspd <= 12) {
      return Err(AssertionError);
    }
    var row := RowFor(k, newspd).value;
    forall i | 0 <= i < SEGMENTS
      ensures row[i] in {k.none, k.future}
    {
      ChartRowMatchesSegments(k, newspd, i + 1);
    }
    var newseg := row;
    var idx := 0;
    while idx < SEGMENTS && c.segment[idx] != k.future
      invariant 0 <= idx <= SEGMENTS && |newseg| == SEGMENTS
      invariant forall i :: 0 <= i < idx ==> c.segment[i] != k.future
      invariant forall i :: 0 <= i < idx ==> newseg[i] == k.none
      invariant forall i :: idx <= i < SEGMENTS ==> newseg[i] == row[i]
    {
      newseg := newseg[idx := k.none];
      idx := idx + 1;
    }
    var f := FirstFuture(k, c.segment);
    assert idx < SEGMENTS ==> f == Some(idx);
    assert idx == SEGMENTS ==> f.None?;
    r := Ok(c.(spd := newspd, segment := newseg));
  }

  /** Whom the engine regards as acting now. Python keeps a reference to the
      object: `At(i)` is the combatant at position `i` of the roster, and
      `Detached(c)` is a combatant that was deleted while acting. */
  datatype Current<S> = NoCurrent | At(index: nat) | Detached(combatant: Combatant<S>)

  /** The speed-chart model: roster in insertion order, cursor and actor. */
  datatype Engine<S> = Engine(combatants: seq<Combatant<S>>, turn: int, seg: int, current: Current<S>)

  /** A new model starts at turn 1, segment 1, with nobody acting. */
  function Init<S>(): (e: Engine<S>)
    ensures WellFormed(e) && e.turn == 1 && e.seg == 1 && e.current.NoCurrent? && |e.combatants| == 0
  {
    Engine([], 1, 1, NoCurrent)
  }

  predicate WellFormed<S>(e: Engine<S>) {
    && 1 <= e.seg <= SEGMENTS
    && (forall i :: 0 <= i < |e.combatants| ==> ValidCombatant(e.combatants[i]))
    && (e.current.At? ==> e.current.index < |e.combatants|)
  }

  /** The record the actor reference denotes, if any. */
  function CurrentRecord<S>(e: Engine<S>): Option<Combatant<S>>
    requires e.current.At? ==> e.current.index < |e.combatants|
  {
    match e.current
    case NoCurrent => None
    case At(i) => Some(e.combatants[i])
    case Detached(c) => Some(c)
  }

  /** Every cell holding the acting state is the actor's cell at the cursor. */
  ghost predicate NowOnlyAtCurrent<S>(k: Codes<S>, e: Engine<S>) {
    forall i, j ::
      (0 <= i < |e.combatants| && 0 <= j < |e.combatants[i].segment| && e.combatants[i].segment[j] == k.now)
      ==> e.current == At(i) && j == e.seg - 1
  }

  /** No cell anywhere in the roster holds the acting state. */
  ghost predicate NoNow<S>(k: Codes<S>, cs: seq<Combatant<S>>) {
    forall i, j :: 0 <= i < |cs| && 0 <= j < |cs[i].segment| ==> cs[i].segment[j] != k.now
  }

  /** Combatant `i` has a pending phase in the cursor's segment. */
  predicate IsCandidate<S(==)>(k: Codes<S>, e: Engine<S>, i: int)
    requires WellFormed(e)
  {
    0 <= i < |e.combatants| && e.combatants[i].segment[e.seg - 1] == k.future
  }

  predicate HasCandidate<S(==)>(k: Codes<S>, e: Engine<S>)
    requires WellFormed(e)
  {
    exists i :: 0 <= i < |e.combatants| && IsCandidate(k, e, i)
  }

  /** Somebody has a pending phase in segment `from` or later of this turn. */
  ghost predicate HasFutureFrom<S>(k: Codes<S>, e: Engine<S>, from: int)
    requires WellFormed(e)
  {
    exists i, j :: 0 <= i < |e.combatants| && from - 1 <= j < SEGMENTS && 0 <= j
      && e.combatants[i].segment[j] == k.future
  }

  /** The chart gives this combatant at least one phase per turn. */
  predicate Acts<S>(c: Combatant<S>) {
    -13 <= c.spd <= 12 && c.spd != 0 && c.spd != -13
  }

  ghost predicate AnyActs<S>(cs: seq<Combatant<S>>) {
    exists i :: 0 <= i < |cs| && Acts(cs[i])
  }

  /** Step 1 of `next()`: the acting combatant's cell at the cursor becomes
      the retired state. A detached actor is no longer in the roster. */
  function Retire<S(==)>(k: Codes<S>, e: Engine<S>): (r: Engine<S>)
    requires ValidCodes(k) && WellFormed(e)
    ensures WellFormed(r) && r.turn == e.turn && r.seg == e.seg && r.current == e.current
    ensures |r.combatants| == |e.combatants|
    ensures forall i :: 0 <= i < |e.combatants| ==>
      r.combatants[i] == e.combatants[i].(segment := r.combatants[i].segment)
    ensures e.current.At? ==> r.combatants[e.current.index].segment[e.seg - 1] == k.retired
    ensures e.current.At? ==>
      forall i, j ::
        (0 <= i < |e.combatants| && 0 <= j < SEGMENTS && (i != e.current.index || j != e.seg - 1))
        ==> r.combatants[i].segment[j] == e.combatants[i].segment[j]
    ensures !e.current.At? ==> r == e
    ensures NowOnlyAtCurrent(k, e) ==> NoNow(k, r.combatants)
  {
    match e.current
    case At(i) =>
      var c := e.combatants[i];
      e.(combatants := e.combatants[i := c.(segment := c.segment[e.seg - 1 := k.retired])])
    case _ => e
  }

  /** `_increment`: past segment 12 the cursor moves to segment 1 of the next
      turn and every vector is re-derived from the chart; otherwise only the
      segment advances. */
  function Increment<S(==)>(k: Codes<S>, e: Engine<S>): (r: Engine<S>)
    requires ValidCodes(k) && WellFormed(e)
    ensures WellFormed(r) && r.current == e.current && |r.combatants| == |e.combatants|
    ensures forall i :: 0 <= i < |e.combatants| ==>
      r.combatants[i] == e.combatants[i].(segment := r.combatants[i].segment)
    ensures e.seg == SEGMENTS ==>
      r.turn == e.turn + 1 && r.seg == 1
      && forall i :: 0 <= i < |r.combatants| ==> Fresh(k, r.combatants[i])
    ensures e.seg < SEGMENTS ==>
      r.turn == e.turn && r.seg == e.seg + 1 && r.combatants == e.combatants
    ensures NoNow(k, e.combatants) ==> NoNow(k, r.combatants)
  {
    if e.seg == SEGMENTS then
      var cs := seq(|e.combatants|, i requires 0 <= i < |e.combatants| => NextTurn(k, e.combatants[i]));
      Engine(cs, e.turn + 1, 1, e.current)
    else
      e.(seg := e.seg + 1)
  }

  /** The model after `n` calls of `_increment`. */
  function IncrementN<S(==)>(k: Codes<S>, e: Engine<S>, n: nat): (r: Engine<S>)
    requires ValidCodes(k) && WellFormed(e)
    ensures WellFormed(r)
    decreases n
  {
    if n == 0 then e else Increment(k, IncrementN(k, e, n - 1))
  }

  /** `i` is the combatant `next()` selects: a pending phase in the cursor's
      segment with the highest DEX among those, and the first in list order
      among equal DEX. */
  ghost predicate IsFirstBest<S>(k: Codes<S>, e: Engine<S>, i: int)
    requires WellFormed(e)
  {
    && IsCandidate(k, e, i)
    && (forall j :: IsCandidate(k, e, j) ==> e.combatants[j].dex <= e.combatants[i].dex)
    && (forall j :: 0 <= j < i && IsCandidate(k, e, j) ==> e.combatants[j].dex < e.combatants[i].dex)
  }

  /** The selection rule picks at most one combatant. */
  lemma FirstBestUnique<S>(k: Codes<S>, e: Engine<S>, i: int, j: int)
    requires WellFormed(e) && IsFirstBest(k, e, i) && IsFirstBest(k, e, j)
    ensures i == j
  {
  }

  /** The first highest-DEX candidate among positions `from` and later. */
  function BestFrom<S(==)>(k: Codes<S>, e: Engine<S>, from: nat): (r: Option<nat>)
    requires WellFormed(e) && from <= |e.combatants|
    ensures r.None? <==> forall j :: from <= j < |e.combatants| ==> !IsCandidate(k, e, j)
    ensures r.Some? ==>
      && from <= r.value && IsCandidate(k, e, r.value)
      && (forall j :: from <= j < |e.combatants| && IsCandidate(k, e, j) ==>
            e.combatants[j].dex <= e.combatants[r.value].dex)
      && (forall j :: from <= j < r.value && IsCandidate(k, e, j) ==>
            e.combatants[j].dex < e.combatants[r.value].dex)
    decreases |e.combatants| - from
  {
    if from == |e.combatants| then None
    else
      var rest := BestFrom(k, e, from + 1);
      if IsCandidate(k, e, from)
         && (rest.None? || e.combatants[rest.value].dex <= e.combatants[from].dex)
      then Some(from)
      else rest
  }

  /** `max` of the candidates' DEX, then the first candidate with that DEX. */
  function Choose<S(==)>(k: Codes<S>, e: Engine<S>): (r: Option<nat>)
    requires WellFormed(e)
    ensures r.Some? <==> HasCandidate(k, e)
    ensures r.Some? ==> IsFirstBest(k, e, r.value)
  {
    BestFrom(k, e, 0)
  }

  /** Seen after the selection: no combatant still pending in the cursor's
      segment has a higher DEX than the actor, and none before the actor in
      the roster has the same DEX. */
  predicate SelectedIsFirstBest<S(==)>(k: Codes<S>, r: Engine<S>)
    requires WellFormed(r) && r.current.At?
  {
    var a := r.combatants[r.current.index];
    && (forall i :: 0 <= i < |r.combatants| && r.combatants[i].segment[r.seg - 1] == k.future ==>
          r.combatants[i].dex <= a.dex)
    && (forall i :: 0 <= i < r.current.index && r.combatants[i].segment[r.seg - 1] == k.future ==>
          r.combatants[i].dex < a.dex)
  }

  /** The end of `next()`: the selected cell becomes the acting state and the
      selected combatant becomes the actor. */
  function Pick<S(==)>(k: Codes<S>, e: Engine<S>): (r: Engine<S>)
    requires ValidCodes(k) && WellFormed(e) && HasCandidate(k, e)
    ensures WellFormed(r) && r.turn == e.turn && r.seg == e.seg
    ensures r.current.At? && IsFirstBest(k, e, r.current.index)
    ensures r.combatants[r.current.index].segment[r.seg - 1] == k.now
    ensures |r.combatants| == |e.combatants|
    ensures forall i, j ::
      (0 <= i < |e.combatants| && 0 <= j < SEGMENTS && (i != r.current.index || j != r.seg - 1))
      ==> r.combatants[i].segment[j] == e.combatants[i].segment[j]
    ensures NoNow(k, e.combatants) ==> NowOnlyAtCurrent(k, r)
    ensures SelectedIsFirstBest(k, r)
  {
    var i := Choose(k, e).value;
    var c := e.combatants[i];
    Engine(e.combatants[i := c.(segment := c.segment[e.seg - 1 := k.now])], e.turn, e.seg, At(i))
  }

  /** `next()` stops after `n` increments: no candidate before, one then. */
  ghost predicate StopsAfter<S>(k: Codes<S>, e: Engine<S>, n: nat)
    requires ValidCodes(k) && WellFormed(e)
  {
    && (forall j :: 0 <= j < n ==> !HasCandidate(k, IncrementN(k, Retire(k, e), j)))
    && HasCandidate(k, IncrementN(k, Retire(k, e), n))
  }

  /** The loop of `next()` ends exactly when, after retiring the actor,
      somebody has a pending phase later in this turn or somebody's chart row
      is not empty. */
  ghost predicate Terminates<S>(k: Codes<S>, e: Engine<S>)
    requires ValidCodes(k) && WellFormed(e)
  {
    HasFutureFrom(k, Retire(k, e), e.seg) || AnyActs(e.combatants)
  }

  lemma FreshActorHasFuture<S>(k: Codes<S>, e: Engine<S>, i: nat)
    requires ValidCodes(k) && WellFormed(e) && e.seg == 1 && i < |e.combatants|
    requires Fresh(k, e.combatants[i]) && Acts(e.combatants[i])
    ensures HasFutureFrom(k, e, 1)
  {
    var c := e.combatants[i];
    var segs := SpeedChart.SegmentsFor(c.spd).value;
    var row := SpeedChart.PyIndex(c.spd, SpeedChart.ROWS).value;
    SpeedChart.SegmentListShape(row);
    var t := segs[0];
    ChartRowMatchesSegments(k, c.spd, t);
    assert e.combatants[i].segment[t - 1] == k.future;
  }

  /** A pending phase later in the turn survives an increment that finds no
      candidate; so the cursor was not yet at segment 12. */
  lemma PendingMovesOn<S>(k: Codes<S>, cur: Engine<S>)
    requires ValidCodes(k) && WellFormed(cur) && !HasCandidate(k, cur)
    requires HasFutureFrom(k, cur, cur.seg)
    ensures cur.seg < SEGMENTS && HasFutureFrom(k, Increment(k, cur), cur.seg + 1)
  {
    var i, j :| 0 <= i < |cur.combatants| && cur.seg - 1 <= j < SEGMENTS && 0 <= j
      && cur.combatants[i].segment[j] == k.future;
    assert j != cur.seg - 1 by {
      assert !IsCandidate(k, cur, i);
    }
    assert Increment(k, cur).combatants[i].segment[j] == k.future;
  }

  /** Crossing into a new turn gives every combatant with a non-empty chart
      row a pending phase. */
  lemma WrapRefills<S>(k: Codes<S>, cur: Engine<S>)
    requires ValidCodes(k) && WellFormed(cur) && cur.seg == SEGMENTS && AnyActs(cur.combatants)
    ensures HasFutureFrom(k, Increment(k, cur), 1)
  {
    var w :| 0 <= w < |cur.combatants| && Acts(cur.combatants[w]);
    var next := Increment(k, cur);
    assert Acts(next.combatants[w]);
    FreshActorHasFuture(k, next, w);
  }

  /** Increments and retiring change no SPD, so they keep a non-empty chart row. */
  lemma StepKeepsActors<S>(k: Codes<S>, cur: Engine<S>)
    requires ValidCodes(k) && WellFormed(cur) && AnyActs(cur.combatants)
    ensures AnyActs(Increment(k, cur).combatants)
    ensures AnyActs(Retire(k, cur).combatants)
  {
    var w :| 0 <= w < |cur.combatants| && Acts(cur.combatants[w]);
    assert Acts(Increment(k, cur).combatants[w]);
    assert Acts(Retire(k, cur).combatants[w]);
  }

  /** What holds after `n` increments of the search loop of `next()`;
      `wrapped` records whether a turn boundary has been crossed. */
  ghost predicate SeekInv<S>(k: Codes<S>, e: Engine<S>, cur: Engine<S>, n: nat, wrapped: bool)
    requires ValidCodes(k) && WellFormed(e)
  {
    && WellFormed(cur) && cur == IncrementN(k, Retire(k, e), n)
    && |cur.combatants| == |e.combatants|
    && (forall j :: 0 <= j < n ==> !HasCandidate(k, IncrementN(k, Retire(k, e), j)))
    && (NowOnlyAtCurrent(k, e) ==> NoNow(k, cur.combatants))
    && (!wrapped ==>
          && cur.turn == e.turn && n == cur.seg - e.seg
          && cur.combatants == Retire(k, e).combatants
          && (HasFutureFrom(k, cur, cur.seg) || AnyActs(cur.combatants)))
    && (wrapped ==>
          && cur.turn == e.turn + 1 && n == SEGMENTS - e.seg + cur.seg
          && HasFutureFrom(k, cur, cur.seg))
  }

  lemma SeekStart<S>(k: Codes<S>, e: Engine<S>)
    requires ValidCodes(k) && WellFormed(e) && Terminates(k, e)
    ensures SeekInv(k, e, Retire(k, e), 0, false)
  {
    if AnyActs(e.combatants) {
      StepKeepsActors(k, e);
    }
  }

  /** One increment of the search loop keeps `SeekInv`; a turn boundary is
      crossed at most once. */
  lemma SeekStep<S>(k: Codes<S>, e: Engine<S>, cur: Engine<S>, n: nat, wrapped: bool)
    requires ValidCodes(k) && WellFormed(e) && SeekInv(k, e, cur, n, wrapped)
    requires !HasCandidate(k, cur)
    ensures wrapped ==> cur.seg < SEGMENTS
    ensures SeekInv(k, e, Increment(k, cur), n + 1, wrapped || cur.seg == SEGMENTS)
  {
    var next := Increment(k, cur);
    assert next == IncrementN(k, Retire(k, e), n + 1);
    if HasFutureFrom(k, cur, cur.seg) {
      PendingMovesOn(k, cur);
    } else {
      StepKeepsActors(k, cur);
      if cur.seg == SEGMENTS {
        WrapRefills(k, cur);
      }
    }
  }

  /** Selecting the actor overwrites a pending phase only, so a retired cell
      survives it. */
  lemma RetiredSurvivesPick<S>(k: Codes<S>, cur: Engine<S>, i: nat, j: nat)
    requires ValidCodes(k) && WellFormed(cur) && HasCandidate(k, cur)
    requires i < |cur.combatants| && j < SEGMENTS && cur.combatants[i].segment[j] == k.retired
    ensures Pick(k, cur).combatants[i].segment[j] == k.retired
  {
    var r := Pick(k, cur);
    assert IsCandidate(k, cur, r.current.index);
  }

  /** When the search loop stops, selecting the actor gives what `next()`
      promises. */
  lemma SeekDone<S>(k: Codes<S>, e: Engine<S>, cur: Engine<S>, n: nat, wrapped: bool)
    requires ValidCodes(k) && WellFormed(e) && SeekInv(k, e, cur, n, wrapped)
    requires HasCandidate(k, cur)
    ensures n < 2 * SEGMENTS && StopsAfter(k, e, n)
    ensures exists m ::
      && 0 <= m < 2 * SEGMENTS && StopsAfter(k, e, m)
      && Pick(k, cur) == Pick(k, IncrementN(k, Retire(k, e), m))
    ensures WellFormed(Pick(k, cur)) && |Pick(k, cur).combatants| == |e.combatants|
    ensures Pick(k, cur).current.At?
    ensures Pick(k, cur).combatants[Pick(k, cur).current.index].segment[Pick(k, cur).seg - 1] == k.now
    ensures Pick(k, cur).turn == e.turn || Pick(k, cur).turn == e.turn + 1
    ensures Pick(k, cur).turn == e.turn ==> Pick(k, cur).seg >= e.seg
    ensures NowOnlyAtCurrent(k, e) ==> NowOnlyAtCurrent(k, Pick(k, cur))
    ensures e.current.At? && Pick(k, cur).turn == e.turn ==>
      Pick(k, cur).combatants[e.current.index].segment[e.seg - 1] == k.retired
  {
    if e.current.At? && Pick(k, cur).turn == e.turn {
      RetiredSurvivesPick(k, cur, e.current.index, e.seg - 1);
    }
  }

  /** `next()`: retire the actor, increment until some combatant has a
      pending phase in the cursor's segment, select the first highest-DEX
      one and make it the actor. Never more than 23 increments, and never
      more than one turn boundary. */
  method Next<S(==)>(k: Codes<S>, e: Engine<S>) returns (r: Engine<S>)
    requires ValidCodes(k) && WellFormed(e) && Terminates(k, e)
    ensures WellFormed(r)
    ensures exists n ::
      && 0 <= n < 2 * SEGMENTS && StopsAfter(k, e, n)
      && r == Pick(k, IncrementN(k, Retire(k, e), n))
    ensures r.turn == e.turn || r.turn == e.turn + 1
    ensures r.turn == e.turn ==> r.seg >= e.seg
    ensures r.current.At? && r.combatants[r.current.index].segment[r.seg - 1] == k.now
    ensures SelectedIsFirstBest(k, r)
    ensures NowOnlyAtCurrent(k, e) ==> NowOnlyAtCurrent(k, r)
    ensures |r.combatants| == |e.combatants|
    ensures e.current.At? && r.turn == e.turn ==>
      r.combatants[e.current.index].segment[e.seg - 1] == k.retired
  {
    var cur, n, wrapped := Seek(k, e);
    SeekDone(k, e, cur, n, wrapped);
    r := Pick(k, cur);
  }

  /** The search loop of `next()`: retire the actor, then increment until
      some combatant has a pending phase in the cursor's segment. */
  method Seek<S(==)>(k: Codes<S>, e: Engine<S>) returns (cur: Engine<S>, ghost n: nat, ghost wrapped: bool)
    requires ValidCodes(k) && WellFormed(e) && Terminates(k, e)
    ensures SeekInv(k, e, cur, n, wrapped) && HasCandidate(k, cur)
  {
    cur := Retire(k, e);
    n := 0;
    wrapped := false;
    SeekStart(k, e);
    while !HasCandidate(k, cur)
      invariant SeekInv(k, e, cur, n, wrapped)
      decreases if wrapped then 0 else 1, SEGMENTS - cur.seg
    {
      SeekStep(k, e, cur, n, wrapped);
      wrapped := wrapped || cur.seg == SEGMENTS;
      cur := Increment(k, cur);
      n := n + 1;
    }
  }

  /** Every increment keeps a roster with no pending phase from the cursor
      on and no acting chart row quiet. */
  lemma {:induction false} QuietStaysQuiet<S>(k: Codes<S>, e: Engine<S>, n: nat)
    requires ValidCodes(k) && WellFormed(e)
    requires !HasFutureFrom(k, e, e.seg) && !AnyActs(e.combatants)
    ensures !HasFutureFrom(k, IncrementN(k, e, n), IncrementN(k, e, n).seg)
    ensures !AnyActs(IncrementN(k, e, n).combatants)
    decreases n
  {
    if n > 0 {
      QuietStaysQuiet(k, e, n - 1);
      var p := IncrementN(k, e, n - 1);
      var q := Increment(k, p);
      assert q == IncrementN(k, e, n);
      forall i | 0 <= i < |q.combatants|
        ensures !Acts(q.combatants[i])
      {
        assert !Acts(p.combatants[i]);
      }
      if p.seg == SEGMENTS {
        forall i, j | 0 <= i < |q.combatants| && 0 <= j < SEGMENTS
          ensures q.combatants[i].segment[j] != k.future
        {
          var c := p.combatants[i];
          assert !Acts(c);
          ChartRowMatchesSegments(k, c.spd, j + 1);
          assert SpeedChart.PyIndex(c.spd, SpeedChart.ROWS).value == 0;
        }
      } else {
        forall i, j | 0 <= i < |q.combatants| && q.seg - 1 <= j < SEGMENTS && 0 <= j
          ensures q.combatants[i].segment[j] != k.future
        {
          assert p.combatants[i].segment[j] != k.future;
        }
      }
    }
  }

  /** Without a pending phase left in the turn and without an acting chart
      row, `next()` increments forever: no number of increments reaches a
      candidate. */
  lemma NextDivergesWithoutActors<S>(k: Codes<S>, e: Engine<S>, n: nat)
    requires ValidCodes(k) && WellFormed(e) && !Terminates(k, e)
    ensures !HasCandidate(k, IncrementN(k, Retire(k, e), n))
  {
    QuietStaysQuiet(k, Retire(k, e), n);
  }

  /** Position of the first combatant named `key`. */
  function FindByName<S>(cs: seq<Combatant<S>>, key: string): (r: Option<nat>)
    ensures r.Some? ==> r.value < |cs| && cs[r.value].name == key
    ensures r.Some? ==> forall j :: 0 <= j < r.value ==> cs[j].name != key
    ensures r.None? ==> forall j :: 0 <= j < |cs| ==> cs[j].name != key
  {
    if |cs| == 0 then None
    else if cs[0].name == key then Some(0)
    else match FindByName(cs[1..], key)
      case None => None
      case Some(i) => Some(i + 1)
  }

  /** `get_combatant(key)`: the first combatant whose name is exactly `key`. */
  function GetCombatant<S>(e: Engine<S>, key: string): (r: Option<Combatant<S>>)
    ensures r.Some? <==> exists j :: 0 <= j < |e.combatants| && e.combatants[j].name == key
    ensures r.Some? ==> r.value.name == key
    ensures r.Some? ==>
      exists i :: 0 <= i < |e.combatants| && e.combatants[i] == r.value
        && (forall j :: 0 <= j < i ==> e.combatants[j].name != key)
  {
    match FindByName(e.combatants, key)
    case None => None
    case Some(i) => Some(e.combatants[i])
  }

  /** `add_combatant`: appends to the roster, with no check for a duplicate
      name; cursor and actor stay as they are. */
  function AddCombatant<S>(e: Engine<S>, c: Combatant<S>): (r: Engine<S>)
    ensures |r.combatants| == |e.combatants| + 1 && r.combatants[|e.combatants|] == c
    ensures r.combatants[..|e.combatants|] == e.combatants
    ensures r.turn == e.turn && r.seg == e.seg && r.current == e.current
  {
    e.(combatants := e.combatants + [c])
  }

  /** Adding keeps the model well formed and keeps the acting-state invariant
      when the newcomer has no acting cell. */
  lemma AddKeepsInvariants<S>(k: Codes<S>, e: Engine<S>, c: Combatant<S>)
    requires WellFormed(e) && ValidCombatant(c)
    ensures WellFormed(AddCombatant(e, c))
    ensures NowOnlyAtCurrent(k, e) && k.now !in c.segment ==> NowOnlyAtCurrent(k, AddCombatant(e, c))
  {
    var r := AddCombatant(e, c);
    assert forall i :: 0 <= i < |e.combatants| ==> r.combatants[i] == e.combatants[i];
  }

  /** Because adding does not check names, a newcomer whose name is already
      taken is never found by name: `get_combatant` keeps returning the
      earlier one. */
  lemma AddedDuplicateIsShadowed<S>(e: Engine<S>, c: Combatant<S>)
    ensures GetCombatant(e, c.name).Some? ==> GetCombatant(AddCombatant(e, c), c.name) == GetCombatant(e, c.name)
    ensures GetCombatant(e, c.name).None? ==> GetCombatant(AddCombatant(e, c), c.name) == Some(c)
  {
    var r := AddCombatant(e, c);
    assert forall i :: 0 <= i < |e.combatants| ==> r.combatants[i] == e.combatants[i];
  }

  /** The actor reference after the roster entry at `removed` is deleted:
      positions after it shift down, and the removed actor becomes detached. */
  function ShiftCurrent<S>(cur: Current<S>, removed: nat, record: Combatant<S>): Current<S> {
    match cur
    case At(j) =>
      if j == removed then Detached(record) else if j > removed then At(j - 1) else At(j)
    case _ => cur
  }

  /** `del_combatant(name)`: removes the first combatant named `name`;
      `list.remove(None)` raises ValueError when there is none. The actor
      reference keeps denoting the same record. */
  function DeleteCombatant<S>(e: Engine<S>, name: string): (r: Result<Engine<S>>)
    requires e.current.At? ==> e.current.index < |e.combatants|
    ensures r.Ok? <==> exists j :: 0 <= j < |e.combatants| && e.combatants[j].name == name
    ensures r.Err? ==> r.error == ValueError
    ensures r.Ok? ==>
      && |r.value.combatants| == |e.combatants| - 1
      && (r.value.current.At? ==> r.value.current.index < |r.value.combatants|)
      && CurrentRecord(r.value) == CurrentRecord(e)
      && r.value.turn == e.turn && r.value.seg == e.seg
      && multiset(r.value.combatants) + multiset{GetCombatant(e, name).value} == multiset(e.combatants)
    ensures r.Ok? ==> FindByName(e.combatants, name).Some?
    ensures r.Ok? ==>
      var i := FindByName(e.combatants, name).value;
      r.value.combatants == e.combatants[..i] + e.combatants[i + 1..]
  {
    match FindByName(e.combatants, name)
    case None => Err(ValueError)
    case Some(i) =>
      RemoveAt(e, i);
      Ok(Engine(e.combatants[..i] + e.combatants[i + 1..], e.turn, e.seg, ShiftCurrent(e.current, i, e.combatants[i])))
  }

  /** Removing the combatant at position `i` drops exactly that record, and
      the shifted actor reference still denotes the same record. */
  lemma RemoveAt<S>(e: Engine<S>, i: nat)
    requires i < |e.combatants| && (e.current.At? ==> e.current.index < |e.combatants|)
    ensures var r := Engine(e.combatants[..i] + e.combatants[i + 1..], e.turn, e.seg,
                            ShiftCurrent(e.current, i, e.combatants[i]));
      && |r.combatants| == |e.combatants| - 1
      && (r.current.At? ==> r.current.index < |r.combatants|)
      && CurrentRecord(r) == CurrentRecord(e)
      && multiset(r.combatants) + multiset{e.combatants[i]} == multiset(e.combatants)
  {
    var cs := e.combatants[..i] + e.combatants[i + 1..];
    assert e.combatants == e.combatants[..i] + [e.combatants[i]] + e.combatants[i + 1..];
    if e.current.At? && e.current.index > i {
      assert cs[e.current.index - 1] == e.combatants[e.current.index];
    }
  }

  /** Deleting keeps the model well formed and the acting-state invariant. */
  lemma DeleteKeepsInvariants<S>(k: Codes<S>, e: Engine<S>, name: string)
    requires WellFormed(e) && DeleteCombatant(e, name).Ok?
    ensures WellFormed(DeleteCombatant(e, name).value)
    ensures NowOnlyAtCurrent(k, e) ==> NowOnlyAtCurrent(k, DeleteCombatant(e, name).value)
  {
    var i := FindByName(e.combatants, name).value;
    var r := DeleteCombatant(e, name).value;
    assert forall j :: 0 <= j < i ==> r.combatants[j] == e.combatants[j];
    assert forall j :: i <= j < |r.combatants| ==> r.combatants[j] == e.combatants[j + 1];
  }

  /** Adding a combatant under a fresh name and deleting it by that name gives
      back the model. */
  lemma AddThenDelete<S>(e: Engine<S>, c: Combatant<S>)
    requires e.current.At? ==> e.current.index < |e.combatants|
    requires GetCombatant(e, c.name).None?
    ensures DeleteCombatant(AddCombatant(e, c), c.name) == Ok(e)
  {
    var r := AddCombatant(e, c);
    assert FindByName(r.combatants, c.name) == Some(|e.combatants|);
    assert r.combatants[..|e.combatants|] == e.combatants;
    assert r.combatants[|e.combatants| + 1..] == [];
    assert e.combatants + [] == e.combatants;
  }
}

=== FILE: speed_chart.dfy ===
/** The HERO System 6e speed chart: which of the twelve segments of a turn a
    combatant of a given SPD acts in.

    The repository keeps the chart in two shapes: a list of segment numbers
    per SPD (used by the time-ordered engine) and a 13 x 12 matrix of 0/1
    flags (used by both segment-state engines). Both are reproduced here
    verbatim, together with Python's list-indexing rule, since every caller
    indexes the chart with an unchecked SPD. */
module SpeedChart {
  import opened Wrappers

  /** Segments per turn. */
  const SEGMENTS: nat := 12

  /** Rows of the chart: SPD 0 through 12. */
  const ROWS: nat := 13

  /** Python's `xs[i]` on a list of length `n`: a negative index counts from
      the end, anything else out of range raises IndexError (None here). */
  function PyIndex(i: int, n: nat): (r: Option<nat>)
    ensures r.Some? <==> -(n as int) <= i < n
    ensures r.Some? ==> r.value < n && (r.value == i || (i < 0 && r.value == i + n))
  {
    if 0 <= i < n then Some(i)
    else if -(n as int) <= i < 0 then Some(i + n)
    else None
  }

  /** The list-of-segments chart, one row per SPD. */
  const SEGMENT_LISTS: seq<seq<int>> := [
    [],
    [7],
    [6, 12],
    [4, 8, 12],
    [3, 6, 9, 12],
    [3, 5, 8, 10, 12],
    [2, 4, 6, 8, 10, 12],
    [2, 4, 6, 7, 9, 11, 12],
    [2, 3, 5, 6, 8, 9, 11, 12],
    [2, 3, 4, 6, 7, 8, 10, 11, 12],
    [2, 3, 4, 5, 6, 8, 9, 10, 11, 12],
    [2, 3, 4, 5, 6, 7, 8, 9, 10, 11, 12],
    [1, 2, 3, 4, 5, 6, 7, 8, 9, 10, 11, 12]
  ]

  /** The 0/1 chart: `MATRIX[spd][s - 1] == 1` when SPD `spd` acts in segment `s`. */
  const MATRIX: seq<seq<int>> := [
    [0, 0, 0, 0, 0, 0, 0, 0, 0, 0, 0, 0],
    [0, 0, 0, 0, 0, 0, 1, 0, 0, 0, 0, 0],
    [0, 0, 0, 0, 0, 1, 0, 0, 0, 0, 0, 1],
    [0, 0, 0, 1, 0, 0, 0, 1, 0, 0, 0, 1],
    [0, 0, 1, 0, 0, 1, 0, 0, 1, 0, 0, 1],
    [0, 0, 1, 0, 1, 0, 0, 1, 0, 1, 0, 1],
    [0, 1, 0, 1, 0, 1, 0, 1, 0, 1, 0, 1],
    [0, 1, 0, 1, 0, 1, 1, 0, 1, 0, 1, 1],
    [0, 1, 1, 0, 1, 1, 0, 1, 1, 0, 1, 1],
    [0, 1, 1, 1, 0, 1, 1, 1, 0, 1, 1, 1],
    [0, 1, 1, 1, 1, 1, 0, 1, 1, 1, 1, 1],
    [0, 1, 1, 1, 1, 1, 1, 1, 1, 1, 1, 1],
    [1, 1, 1, 1, 1, 1, 1, 1, 1, 1, 1, 1]
  ]

  /** `SPEED_CHART[spd]` of the list-of-segments chart, with Python indexing. */
  function SegmentsFor(spd: int): (r: Option<seq<int>>)
    ensures r.Some? <==> -13 <= spd <= 12
  {
    match PyIndex(spd, ROWS)
    case None => None
    case Some(i) => Some(SEGMENT_LISTS[i])
  }

  /** True when `segs` lists segments of a turn in strictly increasing order. */
  predicate StrictlyIncreasingSegments(segs: seq<int>) {
    && (forall i :: 0 <= i < |segs| ==> 1 <= segs[i] <= SEGMENTS)
    && (forall i, j :: 0 <= i < j < |segs| ==> segs[i] < segs[j])
  }

  /** Row `spd` of the list chart has exactly `spd` entries, strictly
      increasing, each a segment number. */
  lemma SegmentListShape(spd: nat)
    requires spd < ROWS
    ensures |SEGMENT_LISTS[spd]| == spd
    ensures StrictlyIncreasingSegments(SEGMENT_LISTS[spd])
  {
    RowSteps(spd);
    StepsIncreasing(SEGMENT_LISTS[spd]);
  }

  /** Every segment a chart row lists is a segment of the turn. */
  lemma ListedSegmentInTurn(spd: int, s: int)
    requires SegmentsFor(spd).Some? && s in SegmentsFor(spd).value
    ensures 1 <= s <= SEGMENTS
  {
    SegmentListShape(PyIndex(spd, ROWS).value);
  }

  /** Row `spd` of the list chart has `spd` segment numbers, each above the
      one before. */
  lemma RowSteps(spd: nat)
    requires spd < ROWS
    ensures |SEGMENT_LISTS[spd]| == spd
    ensures forall i :: 0 <= i < spd ==> 1 <= SEGMENT_LISTS[spd][i] <= SEGMENTS
    ensures forall i :: 1 <= i < spd ==> SEGMENT_LISTS[spd][i - 1] < SEGMENT_LISTS[spd][i]
  {
  }

  /** A list that increases at every step increases between any two
      positions. */
  lemma {:induction false} StepsIncreasing(xs: seq<int>)
    requires forall i :: 1 <= i < |xs| ==> xs[i - 1] < xs[i]
    ensures forall i, j :: 0 <= i < j < |xs| ==> xs[i] < xs[j]
    decreases |xs|
  {
    if |xs| > 1 {
      var rest := xs[1..];
      assert forall i :: 1 <= i < |rest| ==> rest[i - 1] == xs[i] < xs[i + 1] == rest[i];
      StepsIncreasing(rest);
      forall i, j | 0 <= i < j < |xs|
        ensures xs[i] < xs[j]
      {
        if i == 0 {
          if j > 1 {
            assert rest[0] < rest[j - 1];
          }
        } else {
          assert rest[i - 1] < rest[j - 1];
        }
      }
    }
  }

  /** Golden rows of the list chart. */
  lemma SegmentListGoldenRows()
    ensures SEGMENT_LISTS[0] == []
    ensures SEGMENT_LISTS[6] == [2, 4, 6, 8, 10, 12]
    ensures SEGMENT_LISTS[12] == [1, 2, 3, 4, 5, 6, 7, 8, 9, 10, 11, 12]
  {
  }

  /** Every row of the 0/1 chart has twelve cells, each 0 or 1; row 0 is all
      0 and row 12 is all 1. */
  lemma MatrixShape()
    ensures |MATRIX| == ROWS
    ensures forall spd :: 0 <= spd < ROWS ==> |MATRIX[spd]| == SEGMENTS
    ensures forall spd, i :: 0 <= spd < ROWS && 0 <= i < SEGMENTS ==> MATRIX[spd][i] in {0, 1}
    ensures forall i :: 0 <= i < SEGMENTS ==> MATRIX[0][i] == 0 && MATRIX[12][i] == 1
  {
  }

  /** The two charts agree: segment `s` is listed for SPD `spd` exactly when
      the matrix cell for `s` is 1. */
  lemma ChartsAgree(spd: nat, s: int)
    requires spd < ROWS && 1 <= s <= SEGMENTS
    ensures s in SEGMENT_LISTS[spd] <==> MATRIX[spd][s - 1] == 1
  {
  }
}

=== FILE: timed_combat.dfy ===
/** `Combat` of the time-ordered engine: a clock and the registered
    combatants, keyed by their unique short names.

    Python keeps the combatants in a dict, whose iteration order the code
    never relies on; here they are a sequence with distinct short names,
    and every query returns a set of short names. */
module TimedCombat {
  import opened Wrappers
  import SpeedChart
  import opened Timing
  import opened TimedCombatant

  datatype Combat = Combat(now: Time, combatants: seq<Combatant>)

  predicate UniqueNames(cs: seq<Combatant>) {
    forall i, j :: 0 <= i < j < |cs| ==> cs[i].shortname != cs[j].shortname
  }

  function Names(cs: seq<Combatant>): set<string> {
    set i | 0 <= i < |cs| :: cs[i].shortname
  }

  /** Position of the combatant registered under `name`. */
  function Find(cs: seq<Combatant>, name: string): (r: Option<nat>)
    ensures r.Some? ==> r.value < |cs| && cs[r.value].shortname == name
    ensures r.Some? ==> forall j :: 0 <= j < r.value ==> cs[j].shortname != name
    ensures r.None? ==> forall j :: 0 <= j < |cs| ==> cs[j].shortname != name
  {
    if |cs| == 0 then None
    else if cs[0].shortname == name then Some(0)
    else match Find(cs[1..], name)
      case None => None
      case Some(i) => Some(i + 1)
  }

  /** `self.combatants[name]`, None for a missing key. */
  function Lookup(cb: Combat, name: string): (r: Option<Combatant>)
    ensures r.Some? <==> name in Names(cb.combatants)
    ensures r.Some? ==> r.value in cb.combatants && r.value.shortname == name
  {
    match Find(cb.combatants, name)
    case None => None
    case Some(i) => Some(cb.combatants[i])
  }

  /** What every registered combatant satisfies: a pending slot at its own
      DEX in a segment its chart row lists. */
  predicate Registered(c: Combatant) {
    && c.next.Some?
    && c.next.value.dex == Finite(c.dex)
    && SpeedChart.SegmentsFor(c.spd).Some?
    && c.next.value.seg in SpeedChart.SegmentsFor(c.spd).value
  }

  predicate WellFormed(cb: Combat) {
    UniqueNames(cb.combatants) && forall i :: 0 <= i < |cb.combatants| ==> Registered(cb.combatants[i])
  }

  /** `Combat(segment=12)`: round 0 of the given segment, at DEX Infinity,
      with nobody registered. */
  function Init(segment: int := 12): (cb: Combat)
    ensures WellFormed(cb) && |cb.combatants| == 0
    ensures cb.now == Time(0, segment, Infinity, NoTrigger)
  {
    Combat(Time(0, segment, Infinity, NoTrigger), [])
  }

  /** `_add_combatant`: registers a combatant under its short name; a name
      already taken raises RuntimeError. */
  function AddCombatant(cb: Combat, c: Combatant): (r: Result<Combat>)
    ensures r.Ok? <==> c.shortname !in Names(cb.combatants)
    ensures r.Err? ==> r.error == RuntimeError
    ensures r.Ok? ==> r.value.now == cb.now
    ensures r.Ok? ==> Names(r.value.combatants) == Names(cb.combatants) + {c.shortname}
    ensures r.Ok? ==> Lookup(r.value, c.shortname) == Some(c)
    ensures r.Ok? ==> forall n :: n != c.shortname ==> Lookup(r.value, n) == Lookup(cb, n)
    ensures r.Ok? && WellFormed(cb) && Registered(c) ==> WellFormed(r.value)
  {
    if c.shortname in Names(cb.combatants) then Err(RuntimeError)
    else
      Append(cb.combatants, c);
      Ok(Combat(cb.now, cb.combatants + [c]))
  }

  /** Appending a combatant under a fresh short name adds that name, finds
      the new combatant under it and every other name where it was. */
  lemma Append(cs: seq<Combatant>, c: Combatant)
    requires c.shortname !in Names(cs)
    ensures Names(cs + [c]) == Names(cs) + {c.shortname}
    ensures forall n :: Find(cs + [c], n) == (if n == c.shortname then Some(|cs|) else Find(cs, n))
    ensures UniqueNames(cs) ==> UniqueNames(cs + [c])
    ensures forall i :: 0 <= i < |cs| ==> (cs + [c])[i] == cs[i]
  {
    var ds := cs + [c];
    assert forall i :: 0 <= i < |cs| ==> ds[i] == cs[i];
    assert ds[|cs|] == c;
    forall n
      ensures Find(ds, n) == (if n == c.shortname then Some(|cs|) else Find(cs, n))
    {
      FindAppend(cs, c, n);
    }
  }

  /** `Find` on a roster with one combatant appended under a fresh name. */
  lemma FindAppend(cs: seq<Combatant>, c: Combatant, n: string)
    requires c.shortname !in Names(cs)
    ensures Find(cs + [c], n) == (if n == c.shortname then Some(|cs|) else Find(cs, n))
  {
    var ds := cs + [c];
    assert forall i :: 0 <= i < |cs| ==> ds[i] == cs[i];
    assert ds[|cs|] == c;
    if n == c.shortname {
      assert forall i :: 0 <= i < |cs| ==> cs[i].shortname in Names(cs);
    } else {
      match Find(cs, n)
      case None =>
      case Some(j) =>
        assert ds[j] == cs[j];
    }
  }

  /** A lookup in a roster with distinct names finds the one entry with that
      name. */
  lemma LookupUnique(cb: Combat, i: nat)
    requires UniqueNames(cb.combatants) && i < |cb.combatants|
    ensures Lookup(cb, cb.combatants[i].shortname) == Some(cb.combatants[i])
  {
  }

  /** `Combatant(combat, shortname, name, spd, dex, maxstun, maxbody, maxend,
      pc=False)`: without a combat the combatant has no pending slot; with
      one, its first slot is computed inclusively from the combat's clock
      and it registers itself. */
  function NewCombatant(combat: Option<Combat>, shortname: string, name: string, spd: int, dex: int,
                        maxstun: Option<int>, maxbody: Option<int>, maxend: Option<int>,
                        pc: bool := false): (r: Result<(Combatant, Option<Combat>)>)
    ensures combat.None? ==> r.Ok? && r.value.0.next.None? && r.value.1.None?
    ensures combat.Some? ==>
      (r.Ok? <==>
        && SpeedChart.SegmentsFor(spd).Some? && SpeedChart.SegmentsFor(spd).value != []
        && shortname !in Names(combat.value.combatants))
    ensures combat.Some? && r.Err? ==>
      r.error == (if SpeedChart.SegmentsFor(spd).Some? && SpeedChart.SegmentsFor(spd).value != []
                  then RuntimeError else IndexError)
    ensures r.Ok? ==>
      && r.value.0.shortname == shortname && r.value.0.name == name
      && r.value.0.spd == spd && r.value.0.dex == dex && r.value.0.pc == pc
      && r.value.0.stun == NewStat("STUN", maxstun) && r.value.0.body == NewStat("BODY", maxbody)
      && r.value.0.end == NewStat("END", maxend)
    ensures combat.Some? && r.Ok? ==>
      && r.value.1.Some? && Registered(r.value.0)
      && r.value.1.value.now == combat.value.now
      && Lookup(r.value.1.value, shortname) == Some(r.value.0)
      && (forall n :: n != shortname ==> Lookup(r.value.1.value, n) == Lookup(combat.value, n))
    ensures combat.Some? && r.Ok? ==>
      && r.value.0.next.value.trigger == NoTrigger
      && After(combat.value.now, r.value.0.next.value.rnd, r.value.0.next.value.seg, true)
      && forall rnd, s :: s in SpeedChart.SegmentsFor(spd).value && After(combat.value.now, rnd, s, true) ==>
        !SlotBefore(rnd, s, r.value.0.next.value.rnd, r.value.0.next.value.seg)
    ensures combat.Some? && r.Ok? && WellFormed(combat.value) ==> WellFormed(r.value.1.value)
  {
    var c := Combatant(shortname, name, spd, dex, pc,
                       NewStat("STUN", maxstun), NewStat("BODY", maxbody), NewStat("END", maxend), None);
    match combat
    case None => Ok((c, None))
    case Some(cb) =>
      var placed :- CalcNextSegment(c, Some(true), cb.now);
      var registered :- AddCombatant(cb, placed);
      Ok((placed, Some(registered)))
  }

  /** `moves_this_segment`: slot `t` is in the clock's segment, at DEX not
      above the clock's (strictly below it when `strict`). */
  predicate Moves(now: Time, t: Time, strict: bool) {
    && t.rnd == now.rnd && t.seg == now.seg
    && (if strict then DexAbove(now.dex, t.dex) else !DexAbove(t.dex, now.dex))
  }

  /** In terms of the order on times: a combatant moves this segment when
      its slot is in the clock's segment and not earlier than the clock
      (strictly later when `strict`). */
  lemma MovesIsNotEarlier(now: Time, t: Time, strict: bool)
    ensures Moves(now, t, strict) <==>
      t.rnd == now.rnd && t.seg == now.seg && (if strict then Cmp(now, t) < 0 else Cmp(now, t) <= 0)
  {
  }

  /** `combatants_this_segment(strict)`: the short names of the combatants
      that move this segment; one without a pending slot raises
      AttributeError. */
  function ThisSegment(cb: Combat, strict: bool): (r: Result<set<string>>)
    ensures r.Ok? <==> forall i :: 0 <= i < |cb.combatants| ==> cb.combatants[i].next.Some?
    ensures r.Err? ==> r.error == AttributeError
    ensures r.Ok? ==> forall n :: n in r.value <==>
      exists i :: 0 <= i < |cb.combatants| && cb.combatants[i].shortname == n
        && Moves(cb.now, cb.combatants[i].next.value, strict)
  {
    if exists i :: 0 <= i < |cb.combatants| && cb.combatants[i].next.None? then Err(AttributeError)
    else Ok(set i | 0 <= i < |cb.combatants| && Moves(cb.now, cb.combatants[i].next.value, strict)
              :: cb.combatants[i].shortname)
  }

  /** `combatants_this_dex()`: the short names of the combatants whose slot
      is exactly the clock's slot. */
  function ThisDex(cb: Combat): (r: Result<set<string>>)
    ensures r.Ok? <==> ThisSegment(cb, false).Ok?
    ensures r.Err? ==> r.error == AttributeError
    ensures r.Ok? ==> r.value <= ThisSegment(cb, false).value
    ensures r.Ok? ==> forall n :: n in r.value <==>
      exists i :: 0 <= i < |cb.combatants| && cb.combatants[i].shortname == n
        && Cmp(cb.now, cb.combatants[i].next.value) == 0
  {
    if exists i :: 0 <= i < |cb.combatants| && cb.combatants[i].next.None? then Err(AttributeError)
    else Ok(set i | 0 <= i < |cb.combatants| && Moves(cb.now, cb.combatants[i].next.value, false)
                      && cb.combatants[i].next.value.dex == cb.now.dex
              :: cb.combatants[i].shortname)
  }

  /** One combatant's part of `calc_next_segments`: a combatant whose slot
      the clock has reached is rescheduled, unless its trigger cancels that. */
  function Settle(now: Time, c: Combatant): (r: Result<Combatant>)
    ensures r.Err? <==> c.next.None? || (Cmp(now, c.next.value) >= 0 && PostPhaseOf(c.next.value)
                                         && CalcNextSegment(c, None, now).Err?)
    ensures c.next.Some? && Cmp(now, c.next.value) >= 0 && PostPhaseOf(c.next.value) ==>
      r == CalcNextSegment(c, None, now)
    ensures r.Ok? ==> r.value == c.(next := r.value.next)
    ensures r.Ok? && c.next.Some? && (Cmp(now, c.next.value) < 0 || !PostPhaseOf(c.next.value)) ==> r.value == c
  {
    match c.next
    case None => Err(AttributeError)
    case Some(t) =>
      if Cmp(now, t) >= 0 && PostPhaseOf(t) then CalcNextSegment(c, None, now) else Ok(c)
  }

  /** A registered combatant settles without error, stays registered, and is
      left with a slot after the clock unless its trigger cancelled the
      rescheduling. */
  lemma SettleRegistered(now: Time, c: Combatant)
    requires Registered(c)
    ensures Settle(now, c).Ok? && Registered(Settle(now, c).value)
    ensures PostPhaseOf(Settle(now, c).value.next.value) ==> Cmp(now, Settle(now, c).value.next.value) < 0
    ensures !PostPhaseOf(Settle(now, c).value.next.value) ==> Settle(now, c).value == c
  {
    var t := c.next.value;
    if Cmp(now, t) >= 0 && PostPhaseOf(t) {
      var u := Settle(now, c).value.next.value;
      assert After(now, u.rnd, u.seg, Inclusive(c, None, now));
    }
  }

  function SettleAll(now: Time, cs: seq<Combatant>): (r: Result<seq<Combatant>>)
    ensures r.Ok? <==> forall i :: 0 <= i < |cs| ==> Settle(now, cs[i]).Ok?
    ensures r.Ok? ==> |r.value| == |cs| && forall i :: 0 <= i < |cs| ==> r.value[i] == Settle(now, cs[i]).value
  {
    if |cs| == 0 then Ok([])
    else
      assert forall i :: 1 <= i < |cs| ==> cs[i] == cs[1..][i - 1];
      var head :- Settle(now, cs[0]);
      var tail :- SettleAll(now, cs[1..]);
      Ok([head] + tail)
  }

  /** `calc_next_segments()`: settles every combatant against the clock.
      Python iterates the dict and raises on the first failure, leaving the
      earlier combatants updated; here any failure fails the whole call. */
  function CalcNextSegments(cb: Combat): (r: Result<Combat>)
    ensures r.Ok? <==> forall i :: 0 <= i < |cb.combatants| ==> Settle(cb.now, cb.combatants[i]).Ok?
    ensures r.Ok? ==> r.value.now == cb.now && |r.value.combatants| == |cb.combatants|
    ensures r.Ok? ==> forall i :: 0 <= i < |cb.combatants| ==>
      r.value.combatants[i] == cb.combatants[i].(next := r.value.combatants[i].next)
    ensures r.Ok? ==> forall i ::
      (&& 0 <= i < |cb.combatants| && cb.combatants[i].next.Some?
       && (Cmp(cb.now, cb.combatants[i].next.value) < 0 || !PostPhaseOf(cb.combatants[i].next.value)))
      ==> r.value.combatants[i] == cb.combatants[i]
    ensures r.Ok? ==> forall i ::
      (&& 0 <= i < |cb.combatants| && cb.combatants[i].next.Some?
       && Cmp(cb.now, cb.combatants[i].next.value) >= 0 && PostPhaseOf(cb.combatants[i].next.value))
      ==> r.value.combatants[i] == CalcNextSegment(cb.combatants[i], None, cb.now).value
  {
    var cs :- SettleAll(cb.now, cb.combatants);
    Ok(cb.(combatants := cs))
  }

  /** On a well-formed combat `calc_next_segments` succeeds, keeps it well
      formed, and leaves every combatant whose phase will be posted
      scheduled after the clock. */
  lemma CalcNextSegmentsSettles(cb: Combat)
    requires WellFormed(cb)
    ensures CalcNextSegments(cb).Ok? && WellFormed(CalcNextSegments(cb).value)
    ensures forall i :: 0 <= i < |cb.combatants| ==>
      var t := CalcNextSegments(cb).value.combatants[i].next.value;
      PostPhaseOf(t) ==> Cmp(cb.now, t) < 0
    ensures forall i :: 0 <= i < |cb.combatants| ==>
      !PostPhaseOf(CalcNextSegments(cb).value.combatants[i].next.value) ==>
        CalcNextSegments(cb).value.combatants[i] == cb.combatants[i]
  {
    forall i | 0 <= i < |cb.combatants|
      ensures Settle(cb.now, cb.combatants[i]).Ok?
    {
      SettleRegistered(cb.now, cb.combatants[i]);
    }
    var r := CalcNextSegments(cb).value;
    forall i | 0 <= i < |cb.combatants|
      ensures Registered(r.combatants[i])
      ensures PostPhaseOf(r.combatants[i].next.value) ==> Cmp(cb.now, r.combatants[i].next.value) < 0
      ensures !PostPhaseOf(r.combatants[i].next.value) ==> r.combatants[i] == cb.combatants[i]
    {
      SettleRegistered(cb.now, cb.combatants[i]);
    }
    assert forall i :: 0 <= i < |cb.combatants| ==> r.combatants[i].shortname == cb.combatants[i].shortname;
  }

  /** The clock step of `advance_time`: the next segment, past 12 segment 1
      of the next round, at DEX Infinity. */
  function Tick(now: Time): (r: Time)
    ensures r.dex == Infinity && r.trigger == now.trigger
    ensures SlotBefore(now.rnd, now.seg, r.rnd, r.seg)
    ensures forall rnd, s :: 1 <= s <= SpeedChart.SEGMENTS && SlotBefore(now.rnd, now.seg, rnd, s) ==>
      !SlotBefore(rnd, s, r.rnd, r.seg)
  {
    if now.seg + 1 > SpeedChart.SEGMENTS then Time(now.rnd + 1, 1, Infinity, now.trigger)
    else now.(seg := now.seg + 1, dex := Infinity)
  }

  /** A slot after the clock that is no strict candidate of the clock's
      segment is still after the clock once the clock ticks. */
  lemma TickKeepsLater(now: Time, t: Time)
    requires Cmp(now, t) < 0 && !Moves(now, t, true)
    requires 1 <= t.seg <= SpeedChart.SEGMENTS && t.dex.Finite?
    ensures Cmp(Tick(now), t) < 0
  {
  }

  /** Some combatant can still act: its slot is after the clock, or the
      clock has reached it and its trigger will let it be rescheduled. */
  ghost predicate Live(cb: Combat)
    requires WellFormed(cb)
  {
    exists w :: 0 <= w < |cb.combatants|
      && (Cmp(cb.now, cb.combatants[w].next.value) < 0 || PostPhaseOf(cb.combatants[w].next.value))
  }

  /** The highest slot DEX among the strict candidates of the clock's
      segment. A strict candidate's DEX lies below the clock's, so it is
      finite. */
  function MaxCandidateDex(now: Time, cs: seq<Combatant>): (m: Option<int>)
    requires forall i :: 0 <= i < |cs| ==> cs[i].next.Some?
    ensures m.None? <==> forall i :: 0 <= i < |cs| ==> !Moves(now, cs[i].next.value, true)
    ensures m.Some? ==> exists i ::
      0 <= i < |cs| && Moves(now, cs[i].next.value, true) && cs[i].next.value.dex == Finite(m.value)
    ensures m.Some? ==> forall i :: 0 <= i < |cs| && Moves(now, cs[i].next.value, true) ==>
      cs[i].next.value.dex.Finite? && cs[i].next.value.dex.value <= m.value
  {
    if |cs| == 0 then None
    else
      var rest := MaxCandidateDex(now, cs[1..]);
      assert forall i :: 1 <= i < |cs| ==> cs[i] == cs[1..][i - 1];
      var t := cs[0].next.value;
      if Moves(now, t, true) && (rest.None? || rest.value <= t.dex.value) then Some(t.dex.value)
      else rest
  }

  /** What holds each time the search loop of `advance_time` has settled
      the combatants against the clock. */
  ghost predicate AdvanceInv(cb: Combat, c: Combat, w: nat, stepped: bool)
    requires WellFormed(cb)
  {
    && WellFormed(c) && |c.combatants| == |cb.combatants|
    && (forall i :: 0 <= i < |c.combatants| ==>
          c.combatants[i] == cb.combatants[i].(next := c.combatants[i].next))
    && w < |c.combatants| && Cmp(c.now, c.combatants[w].next.value) < 0
    && (forall i :: 0 <= i < |c.combatants| && PostPhaseOf(c.combatants[i].next.value) ==>
          Cmp(c.now, c.combatants[i].next.value) < 0)
    && (forall i :: 0 <= i < |c.combatants| && Cmp(cb.now, c.combatants[i].next.value) < 0 ==>
          Cmp(c.now, c.combatants[i].next.value) < 0)
    && (forall i :: 0 <= i < |cb.combatants| && Cmp(cb.now, cb.combatants[i].next.value) < 0 ==>
          c.combatants[i] == cb.combatants[i])
    && CalcNextSegments(cb) == Ok(Combat(cb.now, c.combatants))
    && (!stepped ==> c.now == cb.now)
    && (stepped ==> SlotBefore(cb.now.rnd, cb.now.seg, c.now.rnd, c.now.seg) && c.now.dex == Infinity)
  }

  lemma AdvanceStart(cb: Combat, w: nat)
    requires WellFormed(cb) && w < |cb.combatants|
    requires Cmp(cb.now, cb.combatants[w].next.value) < 0 || PostPhaseOf(cb.combatants[w].next.value)
    ensures AdvanceInv(cb, CalcNextSegments(cb).value, w, false)
  {
    CalcNextSegmentsSettles(cb);
    var c := CalcNextSegments(cb).value;
    if !PostPhaseOf(c.combatants[w].next.value) {
      assert c.combatants[w] == cb.combatants[w];
    }
  }

  /** With no strict candidate in the clock's segment, a tick passes no
      slot that was after the clock. */
  lemma TickPassesNothing(c: Combat)
    requires WellFormed(c) && MaxCandidateDex(c.now, c.combatants).None?
    ensures forall i :: 0 <= i < |c.combatants| && Cmp(c.now, c.combatants[i].next.value) < 0 ==>
      Cmp(Tick(c.now), c.combatants[i].next.value) < 0
  {
    forall i | 0 <= i < |c.combatants| && Cmp(c.now, c.combatants[i].next.value) < 0
      ensures Cmp(Tick(c.now), c.combatants[i].next.value) < 0
    {
      assert !Moves(c.now, c.combatants[i].next.value, true);
      SpeedChart.ListedSegmentInTurn(c.combatants[i].spd, c.combatants[i].next.value.seg);
      TickKeepsLater(c.now, c.combatants[i].next.value);
    }
  }

  /** One tick and settle of the search loop keeps `AdvanceInv`. */
  lemma AdvanceStep(cb: Combat, c: Combat, w: nat, stepped: bool)
    requires WellFormed(cb) && AdvanceInv(cb, c, w, stepped)
    requires MaxCandidateDex(c.now, c.combatants).None?
    ensures CalcNextSegments(c.(now := Tick(c.now))).Ok?
    ensures AdvanceInv(cb, CalcNextSegments(c.(now := Tick(c.now))).value, w, true)
    ensures CalcNextSegments(c.(now := Tick(c.now))).value.combatants == c.combatants
  {
    var t := Tick(c.now);
    var c1 := c.(now := t);
    TickPassesNothing(c);
    CalcNextSegmentsSettles(c1);
    var d := CalcNextSegments(c1).value;
    forall i | 0 <= i < |c.combatants|
      ensures d.combatants[i] == c.combatants[i]
    {
      if PostPhaseOf(c.combatants[i].next.value) {
        assert Cmp(t, c.combatants[i].next.value) < 0;
      }
    }
    assert d.combatants == c.combatants;
    forall i | 0 <= i < |c.combatants| && Cmp(cb.now, d.combatants[i].next.value) < 0
      ensures Cmp(t, d.combatants[i].next.value) < 0
    {
      if !PostPhaseOf(d.combatants[i].next.value) {
        assert d.combatants[i] == c.combatants[i];
      }
    }
  }

  /** The tick brings the clock closer to the witness's slot: fewer rounds
      ahead, or as many and a later segment. */
  lemma AdvanceMeasure(cb: Combat, c: Combat, w: nat, stepped: bool)
    requires WellFormed(cb) && AdvanceInv(cb, c, w, stepped)
    requires MaxCandidateDex(c.now, c.combatants).None?
    ensures c.combatants[w].next.value.rnd - c.now.rnd >= 0
    ensures c.combatants[w].next.value.rnd == c.now.rnd ==> c.now.seg < SpeedChart.SEGMENTS
    ensures Tick(c.now).rnd > c.now.rnd ==> c.combatants[w].next.value.rnd > c.now.rnd
    ensures Tick(c.now).rnd == c.now.rnd + 1 || (Tick(c.now).rnd == c.now.rnd && Tick(c.now).seg == c.now.seg + 1)
  {
    assert !Moves(c.now, c.combatants[w].next.value, true);
    SpeedChart.ListedSegmentInTurn(c.combatants[w].spd, c.combatants[w].next.value.seg);
  }

  /** Setting the clock's DEX to the highest strict candidate's keeps every
      slot that was after the clock at or after it. */
  lemma LowerClockDex(now: Time, m: int, t: Time)
    requires Cmp(now, t) < 0 && t.dex.Finite?
    requires Moves(now, t, true) ==> t.dex.value <= m
    ensures Cmp(now.(dex := Finite(m)), t) <= 0
  {
  }

  /** The strict candidates of the clock's segment, as a set of short names,
      are empty exactly when no combatant is one. */
  lemma StrictCandidatesEmpty(c: Combat)
    requires WellFormed(c)
    ensures ThisSegment(c, true).Ok?
    ensures ThisSegment(c, true).value == {} <==> MaxCandidateDex(c.now, c.combatants).None?
  {
    if MaxCandidateDex(c.now, c.combatants).Some? {
      var i :| 0 <= i < |c.combatants| && Moves(c.now, c.combatants[i].next.value, true);
      assert c.combatants[i].shortname in ThisSegment(c, true).value;
    }
  }

  /** What `advance_time()` promises of the combat `r` it reaches from
      `cb`: only the pending slots changed, the clock moved forward to a
      finite DEX at which some combatant acts, and no pending slot after the
      old clock, nor any slot whose trigger allows rescheduling, lies before
      the new clock. */
  ghost predicate AdvancedTo(cb: Combat, r: Combat)
    requires WellFormed(cb)
  {
    && WellFormed(r) && |r.combatants| == |cb.combatants|
    && (forall i :: 0 <= i < |r.combatants| ==>
          r.combatants[i] == cb.combatants[i].(next := r.combatants[i].next))
    && Cmp(cb.now, r.now) < 0 && r.now.dex.Finite?
    && (exists i :: 0 <= i < |r.combatants| && Cmp(r.now, r.combatants[i].next.value) == 0)
    && (forall i :: 0 <= i < |r.combatants| && PostPhaseOf(r.combatants[i].next.value) ==>
          Cmp(r.now, r.combatants[i].next.value) <= 0)
    && (forall i :: 0 <= i < |r.combatants| && Cmp(cb.now, r.combatants[i].next.value) < 0 ==>
          Cmp(r.now, r.combatants[i].next.value) <= 0)
    && (forall i :: 0 <= i < |cb.combatants| && Cmp(cb.now, cb.combatants[i].next.value) < 0 ==>
          r.combatants[i] == cb.combatants[i] && Cmp(r.now, cb.combatants[i].next.value) <= 0)
    && CalcNextSegments(cb) == Ok(Combat(cb.now, r.combatants))
  }

  /** With a strict candidate `k` left, moving the clock's DEX to the
      highest one reaches a combat `advance_time()` may stop at. */
  lemma AdvanceFinish(cb: Combat, c: Combat, w: nat, stepped: bool, k: nat)
    requires WellFormed(cb) && AdvanceInv(cb, c, w, stepped)
    requires k < |c.combatants| && Moves(c.now, c.combatants[k].next.value, true)
    ensures AdvancedTo(cb, c.(now := c.now.(dex := Finite(MaxCandidateDex(c.now, c.combatants).value))))
  {
    var m := MaxCandidateDex(c.now, c.combatants).value;
    var r := c.(now := c.now.(dex := Finite(m)));
    var j :| 0 <= j < |c.combatants| && Moves(c.now, c.combatants[j].next.value, true)
      && c.combatants[j].next.value.dex == Finite(m);
    assert r.combatants == c.combatants;
    assert Cmp(r.now, r.combatants[j].next.value) == 0;
    assert DexAbove(c.now.dex, Finite(m));
    LowerClockIsLater(cb.now, c.now, m);
    LowerClockPassesNothing(c, m);
  }

  /** A clock at or after `start`'s segment, with a DEX above `m`, is still
      after `start` once its DEX is lowered to `m`. */
  lemma LowerClockIsLater(start: Time, now: Time, m: int)
    requires now == start || (SlotBefore(start.rnd, start.seg, now.rnd, now.seg) && now.dex == Infinity)
    requires DexAbove(now.dex, Finite(m))
    ensures Cmp(start, now.(dex := Finite(m))) < 0
  {
  }

  /** Lowering the clock's DEX to the highest strict candidate's passes no
      slot that was after the clock. */
  lemma LowerClockPassesNothing(c: Combat, m: int)
    requires WellFormed(c) && MaxCandidateDex(c.now, c.combatants) == Some(m)
    ensures forall i :: 0 <= i < |c.combatants| && Cmp(c.now, c.combatants[i].next.value) < 0 ==>
      Cmp(c.now.(dex := Finite(m)), c.combatants[i].next.value) <= 0
  {
    forall i | 0 <= i < |c.combatants| && Cmp(c.now, c.combatants[i].next.value) < 0
      ensures Cmp(c.now.(dex := Finite(m)), c.combatants[i].next.value) <= 0
    {
      LowerClockDex(c.now, m, c.combatants[i].next.value);
    }
  }

  /** The recursive step of `advance_time()` after the combatants were
      settled: with a strict candidate left in the clock's segment, the clock
      moves to the highest such DEX; otherwise it ticks to the next segment,
      settles again and recurses. `cb` is the combat the search started from
      and `w` a combatant whose next slot keeps it bounded. */
  function AdvanceFrom(ghost cb: Combat, c: Combat, ghost w: nat, ghost stepped: bool): (r: Combat)
    requires WellFormed(cb) && AdvanceInv(cb, c, w, stepped)
    ensures AdvancedTo(cb, r)
    decreases c.combatants[w].next.value.rnd - c.now.rnd, SpeedChart.SEGMENTS - c.now.seg
  {
    StrictCandidatesEmpty(c);
    if |ThisSegment(c, true).value| == 0 then
      AdvanceMeasure(cb, c, w, stepped);
      AdvanceStep(cb, c, w, stepped);
      AdvanceFrom(cb, CalcNextSegments(c.(now := Tick(c.now))).value, w, true)
    else
      var r := c.(now := c.now.(dex := Finite(MaxCandidateDex(c.now, c.combatants).value)));
      var k :| 0 <= k < |c.combatants| && Moves(c.now, c.combatants[k].next.value, true);
      AdvanceFinish(cb, c, w, stepped, k);
      r
  }

  /** A combatant that keeps `advance_time()` from searching forever. */
  ghost function LiveWitness(cb: Combat): (w: nat)
    requires WellFormed(cb) && Live(cb)
    ensures w < |cb.combatants|
    ensures Cmp(cb.now, cb.combatants[w].next.value) < 0 || PostPhaseOf(cb.combatants[w].next.value)
  {
    var w :| 0 <= w < |cb.combatants|
      && (Cmp(cb.now, cb.combatants[w].next.value) < 0 || PostPhaseOf(cb.combatants[w].next.value));
    w
  }

  /** `advance_time()`: settles the combatants, then moves the clock to the
      highest DEX still to act in its segment, or ticks to the next segment
      and tries again. The result is the first slot after the clock at which
      some combatant acts: no combatant's pending action is skipped. */
  function AdvanceTime(cb: Combat): (r: Combat)
    requires WellFormed(cb) && Live(cb)
    ensures WellFormed(r) && |r.combatants| == |cb.combatants|
    ensures forall i :: 0 <= i < |r.combatants| ==>
      r.combatants[i] == cb.combatants[i].(next := r.combatants[i].next)
    ensures Cmp(cb.now, r.now) < 0 && r.now.dex.Finite?
    ensures exists i :: 0 <= i < |r.combatants| && Cmp(r.now, r.combatants[i].next.value) == 0
    ensures forall i :: 0 <= i < |r.combatants| && PostPhaseOf(r.combatants[i].next.value) ==>
      Cmp(r.now, r.combatants[i].next.value) <= 0
    ensures forall i :: 0 <= i < |r.combatants| && Cmp(cb.now, r.combatants[i].next.value) < 0 ==>
      Cmp(r.now, r.combatants[i].next.value) <= 0
    ensures forall i :: 0 <= i < |cb.combatants| && Cmp(cb.now, cb.combatants[i].next.value) < 0 ==>
      r.combatants[i] == cb.combatants[i] && Cmp(r.now, cb.combatants[i].next.value) <= 0
    ensures CalcNextSegments(cb) == Ok(Combat(cb.now, r.combatants))
  {
    AdvanceStart(cb, LiveWitness(cb));
    AdvanceFrom(cb, CalcNextSegments(cb).value, LiveWitness(cb), false)
  }
}

=== FILE: timed_combatant.dfy ===
/** A combatant of the time-ordered engine: SPD, DEX, three characteristics
    and `next`, the slot of its next phase. The combat the Python object
    points to is passed in as its clock. */
module TimedCombatant {
  import opened Wrappers
  import SpeedChart
  import opened Timing
  import Schedule

  /** `Characteristic(name, maxval=None, current=None)`. */
  datatype Stat = Stat(name: string, maxval: Option<int>, current: Option<int>)

  /** A characteristic created without a current value starts at its maximum. */
  function NewStat(name: string, maxval: Option<int> := None, current: Option<int> := None): (r: Stat)
    ensures r.name == name && r.maxval == maxval
    ensures current.None? ==> r.current == r.maxval
    ensures current.Some? ==> r.current == current
  {
    Stat(name, maxval, if current.Some? then current else maxval)
  }

  datatype Combatant = Combatant(
    shortname: string,
    name: string,
    spd: int,
    dex: int,
    pc: bool,
    stun: Stat,
    body: Stat,
    end: Stat,
    next: Option<Time>)

  /** `inc_this` as `calc_next_segment` settles it: the argument when given,
      otherwise whether the pending phase's DEX is below the clock's. */
  function Inclusive(c: Combatant, incThis: Option<bool>, clock: Time): bool
    requires incThis.Some? || c.next.Some?
  {
    if incThis.Some? then incThis.value else DexAbove(clock.dex, c.next.value.dex)
  }

  /** Slot (rnd, s) lies after the clock's slot, or is the clock's own slot
      when `inclusive`. */
  predicate After(clock: Time, rnd: int, s: int, inclusive: bool) {
    SlotBefore(clock.rnd, clock.seg, rnd, s) || (inclusive && rnd == clock.rnd && s == clock.seg)
  }

  /** The first element of a filtered increasing list is its least. */
  lemma {:induction false} AtLeastHead(xs: seq<int>, lo: int)
    requires Schedule.Increasing(xs) && |Schedule.AtLeast(xs, lo)| > 0
    ensures forall x :: x in Schedule.AtLeast(xs, lo) ==> Schedule.AtLeast(xs, lo)[0] <= x
    decreases |xs|
  {
    var rest := xs[1..];
    assert Schedule.Increasing(rest);
    if xs[0] < lo {
      assert Schedule.AtLeast(xs, lo) == [] + Schedule.AtLeast(rest, lo);
      AtLeastHead(rest, lo);
    } else {
      Schedule.AtLeastMembers(xs, lo);
      Schedule.TailAboveHead(xs);
      assert xs == [xs[0]] + rest;
    }
  }

  /** The slot `calc_next_segment` picks from an increasing, non-empty chart
      row is a chart slot after the clock (or at it, when `inc`), in this
      round or the next, and no chart slot after the clock comes earlier. */
  lemma NextSlotIsEarliest(segs: seq<int>, clock: Time, inc: bool)
    requires Schedule.Increasing(segs) && |segs| > 0
    ensures var left := Schedule.AtLeast(segs, if inc then clock.seg else clock.seg + 1);
      var rnd := if |left| == 0 then clock.rnd + 1 else clock.rnd;
      var s := if |left| == 0 then segs[0] else left[0];
      && s in segs && After(clock, rnd, s, inc)
      && forall r2, s2 :: s2 in segs && After(clock, r2, s2, inc) ==> !SlotBefore(r2, s2, rnd, s)
  {
    var lo := if inc then clock.seg else clock.seg + 1;
    var left := Schedule.AtLeast(segs, lo);
    Schedule.AtLeastMembers(segs, lo);
    if |left| == 0 {
      Schedule.TailAboveHead(segs);
      assert segs == [segs[0]] + segs[1..];
    } else {
      AtLeastHead(segs, lo);
      assert left[0] in left;
    }
  }

  /** `calc_next_segment(inc_this, now)` with the combat's clock as `now`:
      the first chart segment after the clock's segment (or at it, when
      inclusive) in this round, else the first chart segment of the next
      round, at the combatant's own DEX. An SPD outside the chart, or one
      with no segment at all, raises IndexError; deciding `inc_this` from a
      missing `next` raises AttributeError. */
  function CalcNextSegment(c: Combatant, incThis: Option<bool>, clock: Time): (r: Result<Combatant>)
    ensures r.Err? <==>
      || SpeedChart.SegmentsFor(c.spd).None?
      || (incThis.None? && c.next.None?)
      || SpeedChart.SegmentsFor(c.spd).value == []
    ensures r.Err? ==> r.error == IndexError || r.error == AttributeError
    ensures r.Err? && SpeedChart.SegmentsFor(c.spd).Some? && incThis.None? && c.next.None? ==>
      r.error == AttributeError
    ensures r.Ok? ==> r.value == c.(next := r.value.next) && r.value.next.Some?
    ensures r.Ok? ==>
      && r.value.next.value.dex == Finite(c.dex)
      && r.value.next.value.trigger == NoTrigger
      && r.value.next.value.seg in SpeedChart.SegmentsFor(c.spd).value
      && (r.value.next.value.rnd == clock.rnd || r.value.next.value.rnd == clock.rnd + 1)
    ensures r.Ok? ==> After(clock, r.value.next.value.rnd, r.value.next.value.seg, Inclusive(c, incThis, clock))
    ensures r.Ok? ==> forall rnd, s ::
      s in SpeedChart.SegmentsFor(c.spd).value && After(clock, rnd, s, Inclusive(c, incThis, clock)) ==>
        !SlotBefore(rnd, s, r.value.next.value.rnd, r.value.next.value.seg)
  {
    match SpeedChart.SegmentsFor(c.spd)
    case None => Err(IndexError)
    case Some(segs) =>
      if incThis.None? && c.next.None? then Err(AttributeError)
      else
        var inc := Inclusive(c, incThis, clock);
        var left := Schedule.AtLeast(segs, if inc then clock.seg else clock.seg + 1);
        SpeedChart.SegmentListShape(SpeedChart.PyIndex(c.spd, SpeedChart.ROWS).value);
        if |left| == 0 then
          if |segs| == 0 then Err(IndexError)
          else
            NextSlotIsEarliest(segs, clock, inc);
            Ok(c.(next := Some(Time(clock.rnd + 1, segs[0], Finite(c.dex), NoTrigger))))
        else
          NextSlotIsEarliest(segs, clock, inc);
          Ok(c.(next := Some(Time(clock.rnd, left[0], Finite(c.dex), NoTrigger))))
  }

  /** `post_phase()`: the pending slot's trigger result when there is one,
      True otherwise; a combatant without a pending slot raises
      AttributeError. */
  function PostPhase(c: Combatant): (r: Result<bool>)
    ensures r.Ok? <==> c.next.Some?
    ensures r.Err? ==> r.error == AttributeError
    ensures r.Ok? ==> (!r.value <==> c.next.value.trigger == Returns(Some(false)))
  {
    match c.next
    case None => Err(AttributeError)
    case Some(t) => Ok(PostPhaseOf(t))
  }

  /** `change_speed(newspd)`: the next phase moves to the earliest slot, at
      or after the clock's segment, whose segment both the old and the new
      speed share, at the combatant's DEX, and the SPD becomes `newspd`. An
      SPD outside the chart raises IndexError and two speeds without a
      shared segment raise ValueError, before anything changes. */
  function ChangeSpeed(c: Combatant, clock: Time, newspd: int): (r: Result<Combatant>)
    ensures r.Ok? <==>
      && SpeedChart.SegmentsFor(c.spd).Some? && SpeedChart.SegmentsFor(newspd).Some?
      && exists s :: Schedule.Shared(c.spd, newspd, s)
    ensures r.Err? && SpeedChart.SegmentsFor(c.spd).Some? && SpeedChart.SegmentsFor(newspd).Some? ==>
      r.error == ValueError
    ensures r.Err? && (SpeedChart.SegmentsFor(c.spd).None? || SpeedChart.SegmentsFor(newspd).None?) ==>
      r.error == IndexError
    ensures r.Ok? ==> r.value == c.(spd := newspd, next := r.value.next)
    ensures r.Ok? ==>
      && r.value.next.Some?
      && r.value.next.value.dex == Finite(c.dex)
      && r.value.next.value.trigger == NoTrigger
      && Schedule.Shared(c.spd, newspd, r.value.next.value.seg)
      && !SlotBefore(r.value.next.value.rnd, r.value.next.value.seg, clock.rnd, clock.seg)
    ensures r.Ok? ==> forall rnd, s ::
      Schedule.Shared(c.spd, newspd, s) && !SlotBefore(rnd, s, clock.rnd, clock.seg) ==>
        !SlotBefore(rnd, s, r.value.next.value.rnd, r.value.next.value.seg)
  {
    var slot :- Schedule.NextCommonSpeed(clock.rnd, clock.seg, c.spd, newspd);
    Ok(c.(next := Some(Time(slot.0, slot.1, Finite(c.dex), NoTrigger)), spd := newspd))
  }
}

=== FILE: timing.dfy ===
/** The clock of the time-ordered engine: a `Time` is a (round, segment,
    DEX) slot, ordered by round, then segment, then DEX descending, so that
    within a segment the higher DEX acts first. */
module Timing {
  import opened Wrappers

  /** A DEX value: a number, or the `Infinity` sentinel the clock holds at
      the start of a segment, before anybody in it has acted. */
  datatype Dex = Finite(value: int) | Infinity

  /** Strictly higher DEX; `Infinity` is above every number. */
  predicate DexAbove(a: Dex, b: Dex) {
    match (a, b)
    case (Finite(x), Finite(y)) => x > y
    case (Infinity, Finite(_)) => true
    case _ => false
  }

  /** Python 2's `cmp` on two DEX values. */
  function DexCmp(a: Dex, b: Dex): (r: int)
    ensures r == -1 || r == 0 || r == 1
    ensures r > 0 <==> DexAbove(a, b)
    ensures r < 0 <==> DexAbove(b, a)
    ensures r == 0 <==> a == b
  {
    match (a, b)
    case (Finite(x), Finite(y)) => if x < y then -1 else if x > y then 1 else 0
    case (Infinity, Finite(_)) => 1
    case (Finite(_), Infinity) => -1
    case (Infinity, Infinity) => 0
  }

  /** What a trigger function attached to a slot returns when called:
      nothing at all, or a value (`None` included). */
  datatype Trigger = NoTrigger | Returns(result: Option<bool>)

  datatype Time = Time(rnd: int, seg: int, dex: Dex, trigger: Trigger)

  /** The (round, segment) pair of `a` comes strictly before that of `b`. */
  predicate SlotBefore(ar: int, as_: int, br: int, bs: int) {
    ar < br || (ar == br && as_ < bs)
  }

  /** Reference order: `a` is strictly earlier than `b`. */
  predicate Earlier(a: Time, b: Time) {
    || SlotBefore(a.rnd, a.seg, b.rnd, b.seg)
    || (a.rnd == b.rnd && a.seg == b.seg && DexAbove(a.dex, b.dex))
  }

  /** `a` and `b` name the same slot; comments and triggers are ignored. */
  predicate SameSlot(a: Time, b: Time) {
    a.rnd == b.rnd && a.seg == b.seg && a.dex == b.dex
  }

  /** `Time.__cmp__`: round first, then segment, then DEX reversed. */
  function Cmp(a: Time, b: Time): (r: int)
    ensures r == -1 || r == 0 || r == 1
    ensures r < 0 <==> Earlier(a, b)
    ensures r == 0 <==> SameSlot(a, b)
    ensures r > 0 <==> Earlier(b, a)
  {
    if a.rnd != b.rnd then (if a.rnd < b.rnd then -1 else 1)
    else if a.seg != b.seg then (if a.seg < b.seg then -1 else 1)
    else -DexCmp(a.dex, b.dex)
  }

  /** Swapping the operands negates the comparison. */
  lemma CmpAntisymmetric(a: Time, b: Time)
    ensures Cmp(a, b) == -Cmp(b, a)
  {
  }

  /** `<=` on times is transitive, and so is `<`. */
  lemma CmpTransitive(a: Time, b: Time, c: Time)
    ensures Cmp(a, b) <= 0 && Cmp(b, c) <= 0 ==> Cmp(a, c) <= 0
    ensures Cmp(a, b) < 0 && Cmp(b, c) <= 0 ==> Cmp(a, c) < 0
  {
  }

  /** Any two times are comparable, and a time equals itself. */
  lemma CmpTotal(a: Time, b: Time)
    ensures Cmp(a, b) <= 0 || Cmp(b, a) <= 0
    ensures Cmp(a, a) == 0
  {
  }

  /** `Time.trigger()` followed by `post_phase`'s default: a result other
      than None is passed on, and no result means the phase is done. */
  function PostPhaseOf(t: Time): (r: bool)
    ensures !r <==> t.trigger == Returns(Some(false))
  {
    match t.trigger
    case NoTrigger => true
    case Returns(None) => true
    case Returns(Some(b)) => b
  }
}

=== FILE: wrappers.dfy ===
/** Failure-carrying values shared by every module of the model.

    The original program signals failure with Python exceptions; each
    operation that can raise one returns a `Result` whose error names the
    exception class the source would raise at that point. */
module Wrappers {

  datatype Option<+T> = None | Some(value: T)

  /** The Python exception classes the modelled code can raise. */
  datatype PyError =
    | AssertionError   // an `assert` in the source failed
    | IndexError       // a list was indexed out of range
    | ValueError       // `int(...)` rejected its text, or `min` of an empty list
    | AttributeError   // an attribute was looked up on `None`
    | RuntimeError     // raised explicitly by the source

  datatype Result<+T> = Ok(value: T) | Err(error: PyError) {

    predicate IsFailure() {
      Err?
    }

    function PropagateFailure<U>(): Result<U>
      requires Err?
    {
      Err(error)
    }

    function Extract(): T
      requires Ok?
    {
      value
    }
  }
}
